=== FILE: README.md ===
# BlockIM back end and router guard, modelled in Dafny

This project models the data-access and authentication core of BlockIM, a
chat and blog service with a Go back end and a Vue front end. It covers these
components:

- **The generic MySQL access layer** (`backed/utils/database.go`):
  - column definitions and the `CREATE TABLE` text;
  - `INSERT`, `UPDATE`, `DELETE` and `SELECT` built from field maps, with
    keys sorted so that Go's random map order cannot change the statement;
  - the refusals made before anything is sent: no columns, no data, or no
    filter on a write;
  - the nil-handle guard of `Exec`/`Query`/`QueryRow`, `Close`, and the
    duplicate-key classifier for MySQL error 1062.
- **The article repository** (`backed/database/articles.go`):
  - the 12-column schema;
  - start-up, with its check-then-create full-text index;
  - the guards and 11-key payloads of insert and update;
  - the `{"id": id}` filters of read, update and delete;
  - the raw listing, search and recent queries and their parameter order;
  - the featured and category filters;
  - the row scanning loop, and the write/read round trip of an article
    through its row (the `Content` field has no column and is never stored).
- **Argon2id password hashing** (`backed/utils/argonHash.go`):
  - the stored layout `$argon2id$v=19$m=65536,t=1,p=4$<salt>$<key>`;
  - how `VerifyPassword` splits it, scans it (`fmt.Sscanf`), decodes it
    (raw standard base64, section 4 of RFC 4648 without padding) and
    compares it.
- **The bearer-token middleware** (`backed/utils/jwt.go`) and `GetClaims`.
- **The front-end navigation guard** (`fronted/src/router/index.ts`).

Every operation is a pure function or a method over immutable values. The
outside world enters as parameters:

| external part | how it is modelled |
|---|---|
| the MySQL server | the reply each statement gets: an `ExecResult` or a cursor of rows, or a failure |
| Go's map iteration order | an explicit sequence that enumerates the map's keys |
| `time.Now` | a `now` argument |
| `json.Marshal` / `json.Unmarshal` of the tag list | their results |
| `crypto/rand` | the salt it produced, or its failure |
| `argon2.IDKey` | a deterministic function parameter `kdf`; where a round trip needs it, it is required to return `keyLen` bytes, as the library documents |
| `jwt.ParseWithClaims` | a parser parameter |
| the front-end cookie store | the `token` cookie's value |

The wrapper `Database.Db` records every statement it sends (`issued`). This
lets contracts say exactly which statement, or that no statement, reached
the store.

Modules, one per file:

| file | module | contents |
|---|---|---|
| `results.dfy` | `Results` | `Option`, `Result` |
| `text.dfy` | `Text` | `strings.Join`, `Split`, `HasPrefix`, `TrimPrefix`, `Contains` |
| `ordering.dfy` | `Ordering` | Go's byte-wise string order; `sort.Strings` |
| `fmt.dfy` | `Fmt` | `%d` when printing and when scanning |
| `sql_builder.dfy` | `SqlBuilder` | the statement builders |
| `database.dfy` | `Database` | the `Database` wrapper |
| `articles.dfy` | `Articles` | the article repository |
| `base64.dfy` | `Base64` | `base64.RawStdEncoding` |
| `argon_hash.dfy` | `ArgonHash` | password hashing and verification |
| `jwt_auth.dfy` | `JwtAuth` | the middleware |
| `router_guard.dfy` | `RouterGuard` | the navigation guard |

## Model

| member | source | states |
|---|---|---|
| SqlBuilder.SuffixRoundTrip | backed/utils/database.go:141-157 | The text after `name type` determines the column's constraints exactly. A primary column gets ` AUTO_INCREMENT PRIMARY KEY` and nothing else. Any other column gets ` NOT NULL` iff it is not nullable, then ` UNIQUE` iff it is unique, then ` DEFAULT d` iff its default is non-empty, in that order. |
| SqlBuilder.ColumnClauses | backed/utils/database.go:138-160 | Each column gets exactly one definition, in the caller's order. |
| SqlBuilder.CreateTableStatement | backed/utils/database.go:131-165 | An empty column list is refused with `NoColumns`. Otherwise the statement is `CREATE TABLE IF NOT EXISTS <name> (` followed by the definitions joined by `,\n  `, and it has no parameters. |
| SqlBuilder.SortedKeys | backed/utils/database.go:186-190 | The collected keys come out strictly ascending, each key of the map exactly once. |
| SqlBuilder.SortedKeysIgnoreOrder | backed/utils/database.go:186-190 | Any two iteration orders of the same map give the same sorted keys. |
| SqlBuilder.BindValuesOf | backed/utils/database.go:193-197 | Pairing the sorted keys with the collected values rebuilds the original map, so `values[i] == data[keys[i]]`. |
| SqlBuilder.InsertStatement | backed/utils/database.go:175-203 | An empty map is refused with `NoInsertData`. Otherwise the statement lists the sorted keys and one `?` per key, and its parameters bound to those keys are exactly the map. |
| SqlBuilder.DeleteStatement | backed/utils/database.go:219-243 | An empty filter is refused, so no unconditional delete is built. Otherwise the statement is `DELETE FROM t WHERE k1 = ? AND ...` over the sorted keys, and its parameters bound to the keys are exactly the filter. |
| SqlBuilder.UpdateStatement | backed/utils/database.go:248-290 | An empty payload is refused first, then an empty filter, and success holds iff both are non-empty. The parameters are the payload's values in sorted-key order, then the filter's values in sorted-key order. Each part bound to its keys rebuilds its map. |
| SqlBuilder.SelectStatement | backed/utils/database.go:295-323 | With no columns the list is `*`. An empty filter adds no `WHERE` and no parameters. A non-empty filter adds `WHERE` over the sorted keys with matching parameters. |
| SqlBuilder.InsertIgnoresKeyOrder | backed/utils/database.go:186-203 | The INSERT text and parameters are the same for every iteration order of the map. |
| SqlBuilder.UpdateIgnoresKeyOrder | backed/utils/database.go:262-290 | The UPDATE text and parameters are the same for every iteration order of both maps. |
| SqlBuilder.DeleteIgnoresKeyOrder | backed/utils/database.go:229-243 | The DELETE text and parameters are the same for every iteration order of the filter. |
| SqlBuilder.SelectIgnoresKeyOrder | backed/utils/database.go:311-322 | The SELECT text and parameters are the same for every iteration order of the filter. |
| SqlBuilder.InsertPlaceholders | backed/utils/database.go:192-203 | With `?`-free identifiers, an INSERT has as many `?` as parameters. |
| SqlBuilder.UpdatePlaceholders | backed/utils/database.go:268-290 | With `?`-free identifiers, an UPDATE has as many `?` as parameters, which number the payload size plus the filter size. |
| SqlBuilder.DeletePlaceholders | backed/utils/database.go:235-243 | With `?`-free identifiers, a DELETE has as many `?` as parameters. |
| Ordering.Sort | backed/utils/database.go:190 | `sort.Strings` returns a permutation of its input, ascending when the keys are distinct. |
| Ordering.SortedUnique | backed/utils/database.go:190 | Two ascending sequences over the same keys are identical, so the sorted order is unique. |
| Ordering.SortIgnoresOrder | backed/utils/database.go:186-190 | Sorting two arrangements of the same distinct keys gives the same sequence. |
| Database.Send | backed/utils/database.go:103-129 | With no pool the call fails with "not initialised" and sends nothing. A closed pool also refuses and sends nothing. An open pool sends exactly the statement. The call succeeds iff the pool is open and the store's reply succeeded, and it passes that reply on. |
| Database.Close | backed/utils/database.go:87-93 | Closing with no pool succeeds and changes nothing. Closing a pool leaves it closed. Only closing an open pool can report an error. |
| Database.CloseIdempotent | backed/utils/database.go:87-93 | Closing a second time succeeds and changes nothing. |
| Database.NothingSentAfterClose | backed/utils/database.go:103-119 | After `Close`, no statement reaches the store. |
| Database.IsDuplicateError | backed/utils/database.go:95-101 | No error is not a duplicate. An error is a duplicate iff its text contains `Error 1062` at some position. |
| Text.ContainsIffOccurs | backed/utils/database.go:100 | The left-to-right scan of `strings.Contains` succeeds iff the substring occurs at some position. |
| Database.CreateTable | backed/utils/database.go:131-166 | An empty column list fails with a usage error and sends nothing. Otherwise an open pool is sent exactly the CREATE TABLE text. The call succeeds iff the columns are non-empty, the pool is open and the store accepted. |
| Database.Insert | backed/utils/database.go:175-217 | An empty map fails and sends nothing. Otherwise an open pool is sent exactly the INSERT. The call succeeds iff the store accepted and reported an insert id, and it returns that id. A missing id is reported as its own error. |
| Database.Delete | backed/utils/database.go:219-246 | An empty filter fails and sends nothing. Otherwise an open pool is sent exactly the DELETE. The call succeeds iff the store accepted, and then it returns the store's result unchanged. |
| Database.Update | backed/utils/database.go:248-293 | An empty payload, then an empty filter, fails and sends nothing. Otherwise an open pool is sent exactly the UPDATE. The call succeeds iff the store accepted, and then it returns the store's result unchanged. |
| Database.Select | backed/utils/database.go:295-326 | Never refused by the builder. An open pool is sent exactly the SELECT. The call succeeds iff the store answered, and then it returns the store's cursor unchanged. |
| Database.RefusedWritesSendNothing | backed/utils/database.go:219-223 | An UPDATE or DELETE without a filter leaves the wrapper untouched, whatever the handle. |
| Articles.SchemaConstraints | backed/database/articles.go:37-50 | The table has 12 columns. Only `id` is the auto-increment primary key, and every other column is declared `NOT NULL` because the zero value of `Nullable` is false. |
| Articles.IndexNamesUndeclaredColumn | backed/database/articles.go:82-86 | The full-text index names a `content` column that none of the 12 schema columns declares. |
| Articles.EnsureFullTextIndex | backed/database/articles.go:64-94 | The catalog count is always queried first. The ALTER is sent iff the pool is open, the count was read and it was 0. A failed count read reports an error and sends no ALTER. The result fails iff the count failed or the ALTER failed. Success means the index now exists. Nothing else is sent: without an open pool no statement at all, otherwise the count query and then the ALTER or nothing. |
| Articles.ProvisioningIdempotent | backed/database/articles.go:74-93 | Once provisioning succeeded, running it again sends only the count query and no second ALTER. |
| Articles.UseArticleData | backed/database/articles.go:31-62 | Start-up succeeds iff the table could be created on an open pool. The CREATE TABLE for the article schema is the first statement sent. After a successful CREATE, the store left behind is exactly the one index provisioning leaves. After a failed CREATE, nothing more is sent. |
| Articles.StartupIgnoresIndexFailure | backed/database/articles.go:57-61 | When index provisioning fails, start-up still succeeds and the error is dropped. Start-up returns success together with the store that the failed provisioning left. |
| Articles.Payload | backed/database/articles.go:167-179 | The write payload has exactly the 11 non-`id` columns as keys, and each field of the article sits under its own column, the tags as their JSON text. |
| Articles.StoredRow | backed/database/articles.go:37-50 | The stored row has one value per schema column in schema order: the assigned id, then each payload value under its column name. |
| Articles.ScanRow | backed/database/articles.go:319-336 | A row scans only if it has the 12 columns. The tag column's text is what JSON decoding is applied to, and `content`, which has no column, stays empty. |
| Articles.PayloadRoundTrip | backed/database/articles.go:319-341 | Reading back the row written from an article's payload decodes to that same article, with the store's id and an empty `content`, provided JSON decoding returns the tags that were encoded. |
| Articles.PayloadCoversSchema | backed/database/articles.go:37-50 | A schema column is a payload key iff it is not `id`, and every payload key is a schema column. |
| Articles.IdFilter | backed/database/articles.go:108-110 | The id filter has the single key `id` bound to the id. |
| Articles.Stamped | backed/database/articles.go:156-159 | A zero date is replaced by the current time, and any other article is unchanged. |
| Articles.InsertArticle | backed/database/articles.go:152-189 | An empty title is refused before anything is built. A tag-encoding failure is reported and nothing is sent. Otherwise an open pool is sent exactly the INSERT of the payload, and without one nothing is sent. On success the returned article is the stamped input carrying the id the store assigned. |
| Articles.UpdateArticle | backed/database/articles.go:191-222 | Id 0 is refused before anything is sent, and a tag-encoding failure is reported. Otherwise an open pool is sent exactly the UPDATE of the payload with the filter `{"id": id}`, and without one nothing is sent. The call succeeds iff the store accepted. |
| Articles.DeleteArticle | backed/database/articles.go:224-244 | Id 0 is refused before anything is sent. Otherwise an open pool is sent exactly the DELETE with the filter `{"id": id}`, and without one nothing is sent. The answer is true iff the store reports more than zero affected rows, and an unavailable count is an error. |
| Articles.SelectByIdStatement | backed/database/articles.go:107-112 | Reading by id sends `SELECT * FROM articles WHERE id = ?` with the id as its only parameter. |
| Articles.DeleteByIdStatement | backed/database/articles.go:229-233 | Deleting by id builds `DELETE FROM articles WHERE id = ?` with the id as its only parameter. |
| Articles.DecodeRow | backed/database/articles.go:319-341 | A row yields an article iff its columns scanned and its tag JSON decoded. The article is the scanned fields with the decoded tags. |
| Articles.ScanArticles | backed/database/articles.go:311-350 | The scan succeeds iff every row decodes and iteration ended without error. On success it returns one article per row, in row order. Otherwise it reports the first failing row, or the iteration error when all rows decoded. |
| Articles.GetArticleById | backed/database/articles.go:107-150 | Exactly the SELECT by id is sent. No row gives `NoRows`. Otherwise the result is the decoded first row, and a row that cannot be decoded is an error. |
| Articles.QueryArticles | backed/database/articles.go:282-288 | Exactly the given statement is sent, and a successful result decodes every returned row in order. |
| Articles.ListStatement | backed/database/articles.go:265-279 | The parameters are `[tag, limit, offset]` when the tag is non-empty and `[limit, offset]` otherwise. The `JSON_CONTAINS` filter follows `WHERE 1=1` iff the tag is non-empty. |
| Articles.ListPlaceholders | backed/database/articles.go:265-279 | The listing query has exactly one `?` per parameter: one in the tag filter when a tag is given, and one each for limit and offset in the `ORDER BY date DESC LIMIT ? OFFSET ?` tail. |
| Articles.ListArticles | backed/database/articles.go:253-289 | Exactly the listing statement is sent, and the category and featured choices do not change it. The result succeeds iff the store answered, every row decodes and iteration ended cleanly, and then it holds each row's decoded article in row order. |
| Articles.ListFilters | backed/database/articles.go:255-263 | The collected filter holds `category` iff a category was given, `featured` iff only featured articles were asked for, and nothing else. |
| Articles.SearchStatement | backed/database/articles.go:291-300 | The search binds `[query, query, limit]`. |
| Articles.SearchArticles | backed/database/articles.go:291-309 | Exactly the search statement is sent. The result succeeds iff the store answered, every row decodes and iteration ended cleanly, and then it holds each row's decoded article in row order. |
| Articles.GetRecentArticles | backed/database/articles.go:352-361 | Exactly the recent-articles query is sent with `[limit]`. The result succeeds iff the store answered, every row decodes and iteration ended cleanly, and then it holds each row's decoded article in row order. |
| Articles.RecentStatement | backed/database/articles.go:353-355 | The newest-first query binds only `[limit]`. |
| Articles.FeaturedFilter | backed/database/articles.go:364-366 | The featured filter is exactly `{"featured": true}`. |
| Articles.CategoryFilter | backed/database/articles.go:378-380 | The category filter is exactly `{"category": c}`. |
| Articles.GetFeaturedArticles | backed/database/articles.go:363-375 | Exactly the SELECT with the featured filter is sent, and `limit` plays no part. The articles returned are the decoded rows, in order, exactly when every row decodes and iteration ended cleanly. |
| Articles.GetArticlesByCategory | backed/database/articles.go:377-389 | Exactly the SELECT with the category filter is sent, and `limit` plays no part. The articles returned are the decoded rows, in order, exactly when every row decodes and iteration ended cleanly. |
| Articles.FeaturedStatement | backed/database/articles.go:368 | The featured query is `SELECT * FROM articles WHERE featured = ?` with `true` and no limit. |
| Articles.CategoryStatement | backed/database/articles.go:382 | The category query is `SELECT * FROM articles WHERE category = ?` with the category and no limit. |
| Base64.Encode | backed/utils/argonHash.go:41-42 | Raw encoding uses only alphabet characters and has Go's unpadded encoded length. |
| Base64.EncodedLengthFormula | backed/utils/argonHash.go:41-42 | The encoded length equals Go's `n/3*4 + (n%3*8+5)/6`. |
| Base64.Decode | backed/utils/argonHash.go:75-83 | Decoding skips line breaks. It fails iff a character is outside the alphabet or a single character is left over, and otherwise yields the expected number of bytes. |
| Base64.RoundTrip | backed/utils/argonHash.go:41-42 | Decoding an encoding gives back the bytes. |
| Base64.NoDollar | backed/utils/argonHash.go:44-52 | An encoding never contains the `$` field separator. |
| Fmt.DecimalValue | backed/utils/argonHash.go:44-52 | Reading the digits that `%d` prints gives back the number. |
| Fmt.SkipSpace | backed/utils/argonHash.go:65 | Only white space other than a line feed is skipped, and what remains is a suffix that does not start with white space. A line feed before the number is the only error. |
| Fmt.ScanNumber | backed/utils/argonHash.go:69-70 | A scanned value fits its Go type and at least one character is consumed. An unsigned target refuses input that does not start with a digit. |
| Fmt.ScanDecimal | backed/utils/argonHash.go:64-72 | Scanning what `%d` printed, followed by a non-digit, returns the number and leaves the rest untouched. |
| Text.Join | backed/utils/database.go:163 | `strings.Join`. Its properties are the lemmas `Text.SplitJoin`, which splits a join back into its parts, and `Text.CountCharJoin`. |
| Text.CountCharJoin | backed/utils/database.go:203 | Joining with a separator free of a character adds no occurrence of it, so the `?` of a statement come only from its parts. |
| Text.Split | backed/utils/argonHash.go:58 | Splitting on `$` gives one more piece than there are `$`, and no piece contains `$`. |
| Text.JoinSplit | backed/utils/argonHash.go:58 | Joining the pieces of a split with the separator gives back the string. |
| Text.SplitJoin | backed/utils/argonHash.go:58 | Splitting a join of `$`-free pieces gives back the pieces. |
| ArgonHash.Format | backed/utils/argonHash.go:44-52 | The `fmt.Sprintf` layout of a stored hash. `ArgonHash.FormatSplit` states what it contains. |
| ArgonHash.FormatSplit | backed/utils/argonHash.go:44-58 | The stored layout splits on `$` into six fields, the first empty, when the algorithm name and both encodings are `$`-free. |
| ArgonHash.HashPassword | backed/utils/argonHash.go:23-53 | A salt failure is reported. Otherwise the stored string splits into `""`, `argon2id`, `v=19`, `m=65536,t=1,p=4`, the encoded salt, and the encoded key derived with time 1, memory 65536, 4 threads and length 32. |
| ArgonHash.ScanVersionField | backed/utils/argonHash.go:64-67 | A written `v=<n>` field scans back as `n`. |
| ArgonHash.ScanVersion | backed/utils/argonHash.go:64-67 | The version scans into a value of Go's 64-bit `int`, and a field not starting with `v=` is an input mismatch. |
| ArgonHash.ScanParamsField | backed/utils/argonHash.go:69-72 | A written `m=..,t=..,p=..` field scans back as its three numbers. |
| ArgonHash.ScanParams | backed/utils/argonHash.go:69-72 | The scanned costs are `uint32` values. A field not starting with `m=` is an input mismatch. |
| ArgonHash.VerifyPassword | backed/utils/argonHash.go:56-97 | Any count of `$` other than five gives the format error. The check succeeds iff there are six fields, the version and cost fields scan, salt and key decode, and the key can be derived: at least one pass, a lane count that is non-zero after the cut to `uint8`, and a non-empty stored key. With six fields the answer is `CheckFields` on the last four, for every string Go accepts, not only for strings the hash layout writes. |
| ArgonHash.CheckFields | backed/utils/argonHash.go:63-96 | The check succeeds iff all four fields scan or decode and the stored costs and key length are ones `argon2.IDKey` accepts. When the fields are good but the derivation would panic, the result is `KdfPanics`. On success the answer is whether the decoded key equals the key derived from the password, the decoded salt and the scanned costs, with the lane count cut to `uint8` and the key length cut to `uint32`. |
| ArgonHash.VerifyFormatted | backed/utils/argonHash.go:56-97 | For a well-formed stored hash with any algorithm name and any version number, the answer is whether the key derived from the password, the stored salt and the stored costs equals the stored key. The lane count is cut to `uint8` and the key length is the stored key's length cut to `uint32`. Zero passes, zero lanes or an empty key give `KdfPanics`. |
| ArgonHash.EmptyKeyPanics | backed/utils/argonHash.go:80-93 | A well-formed stored hash with an empty key field is not checked, whatever its algorithm name and costs: the derivation of a zero-length key panics. |
| ArgonHash.VerifyHashed | backed/utils/argonHash.go:23-97 | A freshly made hash accepts exactly the passwords whose derived key equals the stored one. In particular it accepts the password it was made from. |
| Text.TrimPrefix | backed/utils/jwt.go:39 | `strings.TrimPrefix` removes the prefix when present and otherwise returns the input unchanged. |
| JwtAuth.ClassifyHeader | backed/utils/jwt.go:33-43 | An empty header is missing. A non-empty header is "not bearer" iff it does not start with the exact, case-sensitive `Bearer `. Otherwise the token is what follows the prefix. |
| JwtAuth.BearerToken | backed/utils/jwt.go:39-43 | `Bearer ` followed by any text, even empty, classifies as that text. |
| JwtAuth.LowerCaseBearerRefused | backed/utils/jwt.go:39-43 | A lower-case `bearer ` prefix is refused. |
| JwtAuth.Authenticate | backed/utils/jwt.go:31-63 | A missing header aborts with 401 "not logged in". A non-bearer header aborts with 401 "invalid token". The request continues iff the parser accepts the text after the prefix as a valid token. In that case the claims are stored under `jwtClaims` before the remaining handlers run, and headers and other stored values are kept. No key other than `jwtClaims` is added. |
| JwtAuth.BearerRequest | backed/utils/jwt.go:45-61 | With `Bearer <token>`, the request continues iff that very token parses as valid, and the handlers after it find its claims. |
| JwtAuth.GetClaims | backed/utils/jwt.go:65-71 | Nothing stored gives nothing. Otherwise the result is the stored claims. |
| RouterGuard.Guard | fronted/src/router/index.ts:18-29 | Navigation proceeds iff the target is `Login` or `Register`, or the token is non-empty. Otherwise it is redirected to `Login`. |
| RouterGuard.NoRedirectLoop | fronted/src/router/index.ts:19-27 | A redirect leads to a route the guard lets through, so the guard never redirects in a loop. |

## Left out

- `UseDatabase` (backed/utils/database.go:46-85): configuration file reading, YAML decoding, DSN formatting, pool sizing and `Ping` are driver set-up. The model starts from a wrapper with or without a pool.
- `DeleteTable` (backed/utils/database.go:168-173): a one-line `DROP TABLE` passthrough.
- `IncrementViews`, `IncrementLikes`, `IncrementComments` (backed/database/articles.go:246-251, 391-401): fixed SQL whose only property of interest is atomicity under concurrency.
- `ArticleData.Close` and `ArticleData.IsDuplicateError` (backed/database/articles.go:96-105) only delegate to the wrapper's `Close` and `IsDuplicateError`. `UseArticleData` always builds a non-nil wrapper, so they are modelled by `Database.Close` and `Database.IsDuplicateError`.
- SQL execution, `sql.Rows`, `LastInsertId`, `RowsAffected` and `json.Marshal`/`Unmarshal`: what they return is an input. A `Scan` of a row is either a failure or the 12 columns. A catalog count read is either a failure or the store's count of index rows. `CREATE TABLE IF NOT EXISTS` on an existing table is the store's business.
- `QueryRow` on a nil handle returns a zero `sql.Row`. The code comment says it reports an error on `Scan`, and the model follows that with `NotInitialised`. In Go, `Scan` on a zero `sql.Row` calls `Next` on its nil `*sql.Rows` and panics; the model does not model that panic.
- Articles.UseArticleData: does not model opening the configuration, and its error is `StoreFailed` rather than the formatted Go message. Error texts are enumerations throughout.
- Articles.InsertArticle: returns a new article value. Go updates the caller's `*Article` in place: it stamps `Date` right after the title check, so also when tag encoding or the insert then fails, and it sets `ID` on success. The returned value equals the caller's article after a successful call; the stamped article left behind by a failed call is not modelled.
- Articles.ScanRow: a column value scans only into a destination of its own kind. The conversions `database/sql` makes between kinds, and the precision a `TIMESTAMP` keeps, are not modelled.
- Articles.GetArticleById: like the source, it reads only the first row and never consults the cursor's iteration error.
- Articles.SearchStatement: states the parameter list, not a `?` count of the fixed multi-line query text. The same holds for Articles.RecentStatement.
- The Argon2 key derivation, `crypto/rand` and `subtle.ConstantTimeCompare`: the derivation is the parameter `kdf`, the salt is an input, and the comparison is byte-sequence equality, which is what a result of 1 means. The derivation's panics on zero passes, zero lanes and a zero key length become the error `KdfPanics`. Exhausting memory on a huge stored memory cost is not modelled.
- ArgonHash.VerifyHashed: requires the derivation to return `KeyLen` bytes for the fixed costs. That is what `argon2.IDKey` promises, but the model does not open the derivation.
- ArgonHash.HashPassword: the password is taken as its UTF-8 bytes, which is what `[]byte(password)` passes on. The model has no Unicode encoding.
- `fmt.Sscanf` is modelled for the two formats used here. Input that ends inside a literal is merged with a literal mismatch into one `InputMismatch` error; input that ends where the number should start gives `ExpectedInteger`, where Go reports `io.EOF`. Go's error texts are not kept.
- `GenerateToken` and JWT signing and validation (HS256): the parser is the parameter `parse`. `ParseWithClaims` is given a `RegisteredClaims` template, so the claims type check always succeeds and is not modelled.
- JwtAuth.Authenticate: header names are looked up exactly, so the context's headers are taken to be keyed by canonical MIME names, which is what `Header.Get` canonicalises to; non-canonical keys are not modelled.
- JwtAuth.GetClaims: a value of another type stored under `jwtClaims` would make Go's type assertion panic. The model's context holds only claims.
- RouterGuard.Guard: the cookie helper `useCookie` is not part of this model. The token is the cookie's value, empty when unset.
- Gin routing and handlers, GORM and Mongo handles, the e-mail verification ticker and the front-end user store belong to other parts of the repository.

=== FILE: argon_hash.dfy ===
/** Password hashing of the account service: the stored string
    `$argon2id$v=<version>$m=<memory>,t=<time>,p=<threads>$<salt>$<key>`,
    how it is produced from a password and a random salt, and how a
    password is checked against it.  The Argon2id key derivation is the
    parameter `kdf`, a deterministic function the model does not open. */
module ArgonHash {
  import opened Results
  import opened Text
  import opened Fmt
  import opened Base64

  /** Passes over memory. */
  const Time: nat := 1
  /** Memory in KiB. */
  const Memory: nat := 64 * 1024
  /** Lanes. */
  const Threads: nat := 4
  /** Length of the derived key in bytes. */
  const KeyLen: nat := 32
  /** Length of the random salt in bytes. */
  const SaltLen: nat := 16
  /** `argon2.Version` of the Go library, 0x13. */
  const Version: nat := 0x13

  /** `argon2.IDKey(password, salt, time, memory, threads, keyLen)`. */
  type Kdf = (seq<byte>, seq<byte>, nat, nat, nat, nat) -> seq<byte>

  const Uint32Modulus: nat := 0x1_0000_0000

  /** The parameter field `m=<memory>,t=<time>,p=<threads>`. */
  function ParamsField(memory: nat, time: nat, threads: nat): string
  {
    "m=" + Decimal(memory) + ",t=" + Decimal(time) + ",p=" + Decimal(threads)
  }

  /** The `fmt.Sprintf` layout of a stored hash, with the algorithm and the
      numbers as parameters. */
  function Format(algorithm: string, version: nat, memory: nat, time: nat, threads: nat, salt64: string, key64: string): string
  {
    "$" + algorithm + "$v=" + Decimal(version) + "$" + ParamsField(memory, time, threads) + "$" + salt64 + "$" + key64
  }

  lemma NoDollarInDecimal(n: nat)
    ensures '$' !in Decimal(n)
  {
    var d := Decimal(n);
    assert forall i :: 0 <= i < |d| ==> d[i] != '$';
  }

  /** The six `$`-separated fields of the layout. */
  function Fields(algorithm: string, version: nat, memory: nat, time: nat, threads: nat, salt64: string, key64: string): seq<string>
  {
    ["", algorithm, "v=" + Decimal(version), ParamsField(memory, time, threads), salt64, key64]
  }

  lemma FormatIsJoin(algorithm: string, version: nat, memory: nat, time: nat, threads: nat, salt64: string, key64: string)
    ensures Join(Fields(algorithm, version, memory, time, threads, salt64, key64), "$")
         == Format(algorithm, version, memory, time, threads, salt64, key64)
  {
    var parts := Fields(algorithm, version, memory, time, threads, salt64, key64);
    var j4 := salt64 + "$" + key64;
    var j3 := parts[3] + "$" + j4;
    var j2 := parts[2] + "$" + j3;
    var j1 := algorithm + "$" + j2;
    assert Join(parts[4..], "$") == j4;
    assert Join(parts[3..], "$") == j3;
    assert Join(parts[2..], "$") == j2;
    assert Join(parts[1..], "$") == j1;
    assert Join(parts, "$") == "" + "$" + j1;
  }

  /** The layout splits on `$` into its six fields, the first of them
      empty, as long as the algorithm name and both encodings are free of
      `$`. */
  lemma FormatSplit(algorithm: string, version: nat, memory: nat, time: nat, threads: nat, salt64: string, key64: string)
    requires '$' !in algorithm && '$' !in salt64 && '$' !in key64
    ensures Split(Format(algorithm, version, memory, time, threads, salt64, key64), '$')
         == Fields(algorithm, version, memory, time, threads, salt64, key64)
  {
    var parts := Fields(algorithm, version, memory, time, threads, salt64, key64);
    NoDollarInDecimal(version);
    NoDollarInDecimal(memory);
    NoDollarInDecimal(time);
    NoDollarInDecimal(threads);
    assert '$' !in parts[2];
    assert '$' !in parts[3];
    FormatIsJoin(algorithm, version, memory, time, threads, salt64, key64);
    SplitJoin(parts, '$');
  }

  datatype HashError = SaltUnavailable(msg: string)

  /** Hashing a password: the salt is what `crypto/rand` produced (or its
      failure), the key is derived with the fixed cost parameters and both
      are written in raw standard base64 into the stored layout. */
  function HashPassword(password: seq<byte>, salt: Result<seq<byte>, string>, kdf: Kdf): (r: Result<string, HashError>)
    requires salt.Success? ==> |salt.value| == SaltLen
    ensures salt.Failure? ==> r == Failure(SaltUnavailable(salt.error))
    ensures salt.Success? ==> r.Success?
    ensures salt.Success? ==> (
              Split(r.value, '$')
           == ["", "argon2id", "v=19", "m=65536,t=1,p=4",
               Encode(salt.value), Encode(kdf(password, salt.value, Time, Memory, Threads, KeyLen))])
  {
    match salt
    case Failure(e) => Failure(SaltUnavailable(e))
    case Success(s) =>
      var key := kdf(password, s, Time, Memory, Threads, KeyLen);
      NoDollar(s);
      NoDollar(key);
      FormatSplit("argon2id", Version, Memory, Time, Threads, Encode(s), Encode(key));
      FixedFields();
      Success(Format("argon2id", Version, Memory, Time, Threads, Encode(s), Encode(key)))
  }

  /** The version and cost fields as they are written. */
  lemma FixedFields()
    ensures "v=" + Decimal(Version) == "v=19"
    ensures ParamsField(Memory, Time, Threads) == "m=65536,t=1,p=4"
  {
    assert Decimal(Version) == "19";
    assert Decimal(Memory) == "65536";
  }

  /** `fmt.Sscanf(field, "v=%d", &version)` with `version` an `int`. */
  function ScanVersion(field: string): (r: Result<int, ScanError>)
    ensures r.Success? ==> Fits(r.value, Int64)
    ensures !HasPrefix(field, "v=") ==> r == Failure(InputMismatch)
  {
    match ScanAfter(field, "v=", Int64)
    case Failure(e) => Failure(e)
    case Success((v, _)) => Success(v)
  }

  /** The cost parameters read back from a stored hash. */
  datatype Params = Params(memory: nat, time: nat, threads: nat)

  /** `fmt.Sscanf(field, "m=%d,t=%d,p=%d", &memory, &iterations, &parallelism)`
      into three `uint32`s. */
  function ScanParams(field: string): (r: Result<Params, ScanError>)
    ensures r.Success? ==> r.value.memory < Uint32Modulus && r.value.time < Uint32Modulus && r.value.threads < Uint32Modulus
    ensures !HasPrefix(field, "m=") ==> r == Failure(InputMismatch)
  {
    var m := ScanAfter(field, "m=", Uint32);
    if m.Failure? then Failure(m.error)
    else
      var t := ScanAfter(m.value.1, ",t=", Uint32);
      if t.Failure? then Failure(t.error)
      else
        var p := ScanAfter(t.value.1, ",p=", Uint32);
        if p.Failure? then Failure(p.error)
        else Success(Params(m.value.0, t.value.0, p.value.0))
  }

  /** A written version field reads back as the number written. */
  lemma ScanVersionField(v: nat)
    requires Fits(v, Int64)
    ensures ScanVersion("v=" + Decimal(v)) == Success(v)
  {
    assert "v=" + Decimal(v) == "v=" + (Decimal(v) + "");
    ScanAfterDecimal("v=", v, "", Int64);
  }

  /** A written parameter field reads back as the three numbers written. */
  lemma ScanParamsField(memory: nat, time: nat, threads: nat)
    requires memory < Uint32Modulus && time < Uint32Modulus && threads < Uint32Modulus
    ensures ScanParams(ParamsField(memory, time, threads)) == Success(Params(memory, time, threads))
  {
    var s2 := ",p=" + (Decimal(threads) + "");
    var s1 := ",t=" + (Decimal(time) + s2);
    assert ParamsField(memory, time, threads) == "m=" + (Decimal(memory) + s1);
    ScanAfterDecimal("m=", memory, s1, Uint32);
    ScanAfterDecimal(",t=", time, s2, Uint32);
    ScanAfterDecimal(",p=", threads, "", Uint32);
  }

  /** Why a stored hash cannot be checked. */
  datatype VerifyError =
    | BadFormat
    | BadVersion(cause: ScanError)
    | BadParams(cause: ScanError)
    | BadSalt(saltCause: Base64Error)
    | BadKey(keyCause: Base64Error)
    | KdfPanics

  /** Whether `argon2.IDKey` derives a key at all: it panics on zero passes
      and on zero lanes, and for a zero key length its final BLAKE2b step
      writes to a digest that could not be created. */
  predicate Derivable(ps: Params, keyLen: nat)
  {
    ps.time != 0 && ps.threads % 256 != 0 && keyLen % Uint32Modulus != 0
  }

  /** Checking a password against a stored hash: the string must split on
      `$` into exactly six fields, and the last four are checked by
      `CheckFields`; the first two, the empty field and the algorithm name,
      are never looked at. */
  function VerifyPassword(password: seq<byte>, encoded: string, kdf: Kdf): (r: Result<bool, VerifyError>)
    ensures CountChar(encoded, '$') != 5 ==> r == Failure(BadFormat)
    ensures r.Success? <==>
      var parts := Split(encoded, '$');
      |parts| == 6 && ScanVersion(parts[2]).Success? && ScanParams(parts[3]).Success?
      && Decode(parts[4]).Success? && Decode(parts[5]).Success?
      && Derivable(ScanParams(parts[3]).value, |Decode(parts[5]).value|)
    ensures var parts := Split(encoded, '$');
      |parts| == 6 ==> r == CheckFields(password, parts[2], parts[3], parts[4], parts[5], kdf)
  {
    var parts := Split(encoded, '$');
    if |parts| != 6 then Failure(BadFormat)
    else CheckFields(password, parts[2], parts[3], parts[4], parts[5], kdf)
  }

  /** The version and cost fields must scan (the version number is never
      compared with anything); salt and key must decode; the key is then
      derived again from the password with the stored costs, the lane count
      cut to `uint8` and the stored key's length cut to `uint32`, and the
      answer is whether both keys are equal.  Costs or a key length the
      derivation panics on give `KdfPanics`. */
  function CheckFields(password: seq<byte>, version: string, params: string, salt64: string, key64: string, kdf: Kdf)
    : (r: Result<bool, VerifyError>)
    ensures r.Success? <==>
      ScanVersion(version).Success? && ScanParams(params).Success? && Decode(salt64).Success? && Decode(key64).Success?
      && Derivable(ScanParams(params).value, |Decode(key64).value|)
    ensures r == Failure(KdfPanics) <==>
      ScanVersion(version).Success? && ScanParams(params).Success? && Decode(salt64).Success? && Decode(key64).Success?
      && !Derivable(ScanParams(params).value, |Decode(key64).value|)
    ensures r.Success? ==>
      var ps := ScanParams(params).value;
      var salt := Decode(salt64).value;
      var key := Decode(key64).value;
      r.value == (key == kdf(password, salt, ps.time, ps.memory, ps.threads % 256, |key| % Uint32Modulus))
  {
    match ScanVersion(version)
    case Failure(e) => Failure(BadVersion(e))
    case Success(_) =>
      match ScanParams(params)
      case Failure(e) => Failure(BadParams(e))
      case Success(ps) =>
        match Decode(salt64)
        case Failure(e) => Failure(BadSalt(e))
        case Success(salt) =>
          match Decode(key64)
          case Failure(e) => Failure(BadKey(e))
          case Success(key) =>
            if !Derivable(ps, |key|) then Failure(KdfPanics)
            else
              var again := kdf(password, salt, ps.time, ps.memory, ps.threads % 256, |key| % Uint32Modulus);
              Success(key == again)
  }

  /** Checking the fields as they are written. */
  lemma CheckWritten(password: seq<byte>, version: nat, memory: nat, time: nat, threads: nat,
                     salt: seq<byte>, key: seq<byte>, kdf: Kdf)
    requires Fits(version, Int64)
    requires memory < Uint32Modulus && time < Uint32Modulus && threads < Uint32Modulus
    ensures CheckFields(password, "v=" + Decimal(version), ParamsField(memory, time, threads), Encode(salt), Encode(key), kdf)
         == if Derivable(Params(memory, time, threads), |key|)
            then Success(key == kdf(password, salt, time, memory, threads % 256, |key| % Uint32Modulus))
            else Failure(KdfPanics)
  {
    ScanVersionField(version);
    ScanParamsField(memory, time, threads);
    RoundTrip(salt);
    RoundTrip(key);
  }

  /** Checking a password against any well-formed stored hash: whatever the
      algorithm and the version number, the answer is whether the key derived
      from the password, the decoded salt and the written costs equals the
      decoded key; for costs or a key length the derivation panics on, the
      check reports that instead. */
  lemma VerifyFormatted(password: seq<byte>, algorithm: string, version: nat, memory: nat, time: nat, threads: nat,
                        salt: seq<byte>, key: seq<byte>, kdf: Kdf)
    requires '$' !in algorithm
    requires Fits(version, Int64)
    requires memory < Uint32Modulus && time < Uint32Modulus && threads < Uint32Modulus
    ensures Derivable(Params(memory, time, threads), |key|) ==> (
              VerifyPassword(password, Format(algorithm, version, memory, time, threads, Encode(salt), Encode(key)), kdf)
           == Success(key == kdf(password, salt, time, memory, threads % 256, |key| % Uint32Modulus)))
    ensures !Derivable(Params(memory, time, threads), |key|) ==> (
              VerifyPassword(password, Format(algorithm, version, memory, time, threads, Encode(salt), Encode(key)), kdf)
           == Failure(KdfPanics))
  {
    NoDollar(salt);
    NoDollar(key);
    FormatSplit(algorithm, version, memory, time, threads, Encode(salt), Encode(key));
    CheckWritten(password, version, memory, time, threads, salt, key, kdf);
  }

  /** A stored hash whose key field is empty is not checked, whatever its
      costs: deriving a key of length zero panics. */
  lemma EmptyKeyPanics(password: seq<byte>, algorithm: string, version: nat, memory: nat, time: nat, threads: nat,
                       salt: seq<byte>, kdf: Kdf)
    requires '$' !in algorithm
    requires Fits(version, Int64)
    requires memory < Uint32Modulus && time < Uint32Modulus && threads < Uint32Modulus
    ensures VerifyPassword(password, Format(algorithm, version, memory, time, threads, Encode(salt), ""), kdf)
         == Failure(KdfPanics)
  {
    var empty: seq<byte> := [];
    assert Encode(empty) == "";
    assert !Derivable(Params(memory, time, threads), |empty|);
    VerifyFormatted(password, algorithm, version, memory, time, threads, salt, empty, kdf);
  }

  /** A stored hash accepts exactly the passwords whose derived key, under
      the same salt and costs, equals the stored one; in particular the
      password it was made from. */
  lemma VerifyHashed(password: seq<byte>, attempt: seq<byte>, salt: seq<byte>, kdf: Kdf)
    requires |salt| == SaltLen
    requires |kdf(password, salt, Time, Memory, Threads, KeyLen)| == KeyLen
    ensures HashPassword(password, Success(salt), kdf).Success?
    ensures VerifyPassword(attempt, HashPassword(password, Success(salt), kdf).value, kdf)
         == Success(kdf(attempt, salt, Time, Memory, Threads, KeyLen) == kdf(password, salt, Time, Memory, Threads, KeyLen))
    ensures VerifyPassword(password, HashPassword(password, Success(salt), kdf).value, kdf) == Success(true)
  {
    var key := kdf(password, salt, Time, Memory, Threads, KeyLen);
    var encoded := Format("argon2id", Version, Memory, Time, Threads, Encode(salt), Encode(key));
    assert HashPassword(password, Success(salt), kdf) == Success(encoded);
    assert Threads % 256 == Threads && |key| % Uint32Modulus == KeyLen;
    assert Derivable(Params(Memory, Time, Threads), |key|);
    VerifyFormatted(attempt, "argon2id", Version, Memory, Time, Threads, salt, key, kdf);
    VerifyFormatted(password, "argon2id", Version, Memory, Time, Threads, salt, key, kdf);
  }
}

=== FILE: articles.dfy ===
/** The article repository built on the `Database` wrapper: the table
    schema, start-up provisioning of the full-text index, the validation
    guards and field maps of the write operations, and the statements and
    row decoding of the read operations.  Time values are integers with 0
    standing for Go's zero `time.Time`; what JSON encoding and decoding of
    the tag list produce is an input. */
module Articles {
  import opened Results
  import opened Text
  import opened Ordering
  import opened SqlBuilder
  import opened Database

  /** An article.  `content` has no column: it is never written, and a
      scanned article leaves it empty. */
  datatype Article = Article(
    id: int, title: string, excerpt: string, author: string, date: int,
    readTime: int, likes: int, comments: int, views: int,
    category: string, tags: seq<string>, featured: bool, content: string)

  /** Why a repository operation failed. */
  datatype ArticleError =
    | EmptyTitle
    | InvalidId
    | TagsEncoding(msg: string)
    | StoreFailed(cause: DbError)
    | NoRows
    | RowUnreadable(msg: string)
    | TagsUnreadable(msg: string)
    | Iteration(msg: string)
    | RowsAffectedUnknown(msg: string)

  /** The wrapper after a repository operation, and its outcome. */
  datatype Outcome<T> = Outcome(db: Db, out: Result<T, ArticleError>)

  const TableName := "articles"

  // ----------------------------------------------------------------- schema

  /** The twelve columns of the `articles` table.  Go's zero value leaves
      `Nullable` false on every entry, so every non-primary column is NOT NULL. */
  const ArticleColumns: seq<ColumnDefinition> := [
    ColumnDefinition("id", "INT", false, true, false, ""),
    ColumnDefinition("title", "VARCHAR(255)", false, false, true, ""),
    ColumnDefinition("excerpt", "TEXT", false, false, false, ""),
    ColumnDefinition("author", "VARCHAR(255)", false, false, false, ""),
    ColumnDefinition("date", "TIMESTAMP", false, false, false, "CURRENT_TIMESTAMP"),
    ColumnDefinition("read_time", "INT", false, false, false, "0"),
    ColumnDefinition("likes", "INT", false, false, false, "0"),
    ColumnDefinition("comments", "INT", false, false, false, "0"),
    ColumnDefinition("views", "INT", false, false, false, "0"),
    ColumnDefinition("category", "VARCHAR(100)", false, false, false, ""),
    ColumnDefinition("tags", "JSON", false, false, false, ""),
    ColumnDefinition("featured", "BOOLEAN", false, false, false, "false")
  ]

  /** Exactly one column, `id`, is the auto-increment primary key; every
      other column is declared NOT NULL. */
  lemma SchemaConstraints()
    ensures |ArticleColumns| == 12
    ensures forall i :: 0 <= i < |ArticleColumns| ==>
      (ArticleColumns[i].primary <==> i == 0) &&
      (i > 0 ==> ConstraintsOf(ArticleColumns[i]).notNull)
    ensures ArticleColumns[0].name == "id" && ConstraintsOf(ArticleColumns[0]) == AutoPrimaryKey
  {
  }

  /** The columns the full-text index covers. */
  const IndexColumns: seq<string> := ["title", "excerpt", "content"]

  /** The index names a column the schema does not declare. */
  lemma IndexNamesUndeclaredColumn()
    ensures "content" in IndexColumns
    ensures forall c :: c in ArticleColumns ==> c.name != "content"
  {
  }

  /** The catalog query: how many rows `information_schema.statistics`
      holds for the index. */
  const CountIndexSql := "\n        SELECT COUNT(*) FROM information_schema.statistics \n        WHERE table_schema = DATABASE() \n        AND table_name = 'articles' \n        AND index_name = 'idx_fulltext_search'\n    "

  function AlterSql(): string
  {
    "\n            ALTER TABLE articles \n            ADD FULLTEXT INDEX idx_fulltext_search ("
    + Join(IndexColumns, ", ") + ")\n            WITH PARSER ngram\n        "
  }

  /** The wrapper together with the store's catalog: the number of
      statistics rows describing the full-text index (0 when it is absent). */
  datatype Store = Store(db: Db, indexRows: nat)

  /** `createFullTextIndex`: read the catalog count; if that fails, report it
      and send nothing more; if the count is 0, send the one ALTER that
      creates the index.  `countFails` and `alterReply` are the store's
      answers; a successful ALTER leaves one catalog row per indexed column. */
  function EnsureFullTextIndex(s: Store, countFails: Option<string>, alterReply: Result<ExecResult, string>):
    (r: (Store, Result<(), ArticleError>))
    ensures r.0.db.handle == s.db.handle
    ensures s.db.issued <= r.0.db.issued
    ensures s.db.handle == Pool(false) ==>
      |r.0.db.issued| > |s.db.issued| && r.0.db.issued[|s.db.issued|] == Stmt(CountIndexSql, [])
    ensures AlterSent(s, r.0) <==> s.db.handle == Pool(false) && countFails.None? && s.indexRows == 0
    ensures |r.0.db.issued| <= |s.db.issued| + 2
    ensures r.1.Failure? <==> s.db.handle != Pool(false) || countFails.Some? || (s.indexRows == 0 && alterReply.Failure?)
    ensures r.1.Success? ==> r.0.indexRows > 0
    ensures s.indexRows > 0 ==> r.0.indexRows == s.indexRows
    ensures r.0.db.issued == s.db.issued + Provisioned(s, countFails)
    ensures r.0.indexRows == if AlterSent(s, r.0) && r.1.Success? then |IndexColumns| else s.indexRows
  {
    var count := Send(s.db, Stmt(CountIndexSql, []),
                      if countFails.Some? then Failure(countFails.value) else Success(s.indexRows));
    match count.out
    case Failure(e) => (Store(count.db, s.indexRows), Failure(StoreFailed(e)))
    case Success(n) =>
      if n != 0 then (Store(count.db, s.indexRows), Success(()))
      else
        var alter := Send(count.db, Stmt(AlterSql(), []), alterReply);
        match alter.out
        case Failure(e) => (Store(alter.db, s.indexRows), Failure(StoreFailed(e)))
        case Success(_) => (Store(alter.db, |IndexColumns|), Success(()))
  }

  /** The statements provisioning sends: none without an open pool; otherwise
      the count query, then the ALTER iff the count was read and was 0. */
  function Provisioned(s: Store, countFails: Option<string>): seq<Stmt>
  {
    if s.db.handle != Pool(false) then []
    else [Stmt(CountIndexSql, [])] + (if countFails.None? && s.indexRows == 0 then [Stmt(AlterSql(), [])] else [])
  }

  /** Going from `before` to `after`, the ALTER that creates the index was sent. */
  predicate AlterSent(before: Store, after: Store)
  {
    |after.db.issued| == |before.db.issued| + 2 && after.db.issued[|after.db.issued| - 1] == Stmt(AlterSql(), [])
  }

  /** Once provisioning has succeeded, running it again sends only the count
      query and leaves the catalog alone. */
  lemma ProvisioningIdempotent(s: Store, c1: Option<string>, a1: Result<ExecResult, string>,
                               c2: Option<string>, a2: Result<ExecResult, string>)
    requires EnsureFullTextIndex(s, c1, a1).1.Success?
    ensures var s1 := EnsureFullTextIndex(s, c1, a1).0;
            var s2 := EnsureFullTextIndex(s1, c2, a2).0;
            !AlterSent(s1, s2) && s2.indexRows == s1.indexRows
            && s2.db.issued == s1.db.issued + [Stmt(CountIndexSql, [])]
  {
  }

  /** What `UseArticleData` hands back: its outcome and the store it leaves. */
  datatype Startup = Startup(out: Result<(), ArticleError>, store: Store)

  /** `UseArticleData` on an opened database: create the table, failing if
      that fails; then provision the index, discarding any error it reports. */
  function UseArticleData(s: Store, createReply: Result<ExecResult, string>,
                          countFails: Option<string>, alterReply: Result<ExecResult, string>): (r: Startup)
    ensures r.out.Success? <==> s.db.handle == Pool(false) && createReply.Success?
    ensures r.out.Success? ==>
      |r.store.db.issued| > |s.db.issued| && CreateTableStatement(TableName, ArticleColumns).Success? &&
      r.store.db.issued[|s.db.issued|] == CreateTableStatement(TableName, ArticleColumns).value
    ensures var created := CreateTable(s.db, TableName, ArticleColumns, createReply).db;
      r.store == if r.out.Success? then EnsureFullTextIndex(Store(created, s.indexRows), countFails, alterReply).0
                 else Store(created, s.indexRows)
  {
    var created := CreateTable(s.db, TableName, ArticleColumns, createReply);
    match created.out
    case Failure(e) => Startup(Failure(StoreFailed(e)), Store(created.db, s.indexRows))
    case Success(_) =>
      var (s', _) := EnsureFullTextIndex(Store(created.db, s.indexRows), countFails, alterReply);
      Startup(Success(()), s')
  }

  /** Start-up succeeds even when provisioning the index fails. */
  lemma StartupIgnoresIndexFailure(s: Store, createReply: Result<ExecResult, string>,
                                   countFails: Option<string>, alterReply: Result<ExecResult, string>)
    requires s.db.handle == Pool(false) && createReply.Success?
    requires countFails.Some? || (s.indexRows == 0 && alterReply.Failure?)
    ensures var created := CreateTable(s.db, TableName, ArticleColumns, createReply).db;
            var provisioned := EnsureFullTextIndex(Store(created, s.indexRows), countFails, alterReply);
            provisioned.1.Failure?
            && UseArticleData(s, createReply, countFails, alterReply) == Startup(Success(()), provisioned.0)
  {
  }

  // ----------------------------------------------------------------- writes

  /** The eleven columns an article is written to: every column but `id`. */
  const PayloadKeys: set<string> :=
    {"title", "excerpt", "author", "date", "read_time", "likes", "comments", "views", "category", "tags", "featured"}

  /** The field map written on insert and on update, with `tagsJson` the
      encoded tag list. */
  function Payload(a: Article, tagsJson: string): (m: FieldMap)
    ensures m.Keys == PayloadKeys
    ensures "id" !in m
    ensures m["title"] == TextVal(a.title) && m["excerpt"] == TextVal(a.excerpt) && m["author"] == TextVal(a.author)
    ensures m["date"] == TimeVal(a.date) && m["read_time"] == IntVal(a.readTime) && m["likes"] == IntVal(a.likes)
    ensures m["comments"] == IntVal(a.comments) && m["views"] == IntVal(a.views)
    ensures m["category"] == TextVal(a.category) && m["tags"] == TextVal(tagsJson) && m["featured"] == BoolVal(a.featured)
  {
    map[
      "title" := TextVal(a.title), "excerpt" := TextVal(a.excerpt), "author" := TextVal(a.author),
      "date" := TimeVal(a.date), "read_time" := IntVal(a.readTime), "likes" := IntVal(a.likes),
      "comments" := IntVal(a.comments), "views" := IntVal(a.views), "category" := TextVal(a.category),
      "tags" := TextVal(tagsJson), "featured" := BoolVal(a.featured)]
  }

  /** The payload writes every schema column except `id`, and nothing else. */
  lemma PayloadCoversSchema()
    ensures forall i :: 0 <= i < |ArticleColumns| ==> (ArticleColumns[i].name in PayloadKeys <==> i != 0)
    ensures forall k :: k in PayloadKeys ==> k in Names(ArticleColumns)
  {
    assert Names(ArticleColumns) == ["id", "title", "excerpt", "author", "date", "read_time", "likes",
                                     "comments", "views", "category", "tags", "featured"];
  }

  function Names(cols: seq<ColumnDefinition>): (names: seq<string>)
    ensures |names| == |cols| && forall i :: 0 <= i < |cols| ==> names[i] == cols[i].name
  {
    seq(|cols|, i requires 0 <= i < |cols| => cols[i].name)
  }

  /** `order` is one possible iteration order of a payload map. */
  ghost predicate PayloadOrder(order: seq<string>)
  {
    Distinct(order) && forall k :: k in order <==> k in PayloadKeys
  }

  lemma PayloadEnumerated(order: seq<string>, a: Article, tagsJson: string)
    requires PayloadOrder(order)
    ensures Enumerates(order, Payload(a, tagsJson))
  {
  }

  /** `{"id": id}`. */
  function IdFilter(id: int): (m: FieldMap)
    ensures m.Keys == {"id"} && m["id"] == IntVal(id)
  {
    map["id" := IntVal(id)]
  }

  /** The only iteration order of a one-key map. */
  const IdOrder: seq<string> := ["id"]

  lemma IdFilterEnumerated(id: int)
    ensures Enumerates(IdOrder, IdFilter(id))
  {
  }

  /** A zero date is replaced by the current time `now`. */
  function Stamped(a: Article, now: int): (b: Article)
    ensures a.date != 0 ==> b == a
    ensures a.date == 0 ==> b == a.(date := now)
  {
    if a.date == 0 then a.(date := now) else a
  }

  /** `InsertArticle`: an empty title is refused and a failed tag encoding
      reported, both before anything is sent; otherwise the stamped article's
      payload is inserted and the article comes back with the id the store
      assigned. */
  function InsertArticle(db: Db, a: Article, now: int, tagsJson: Result<string, string>, order: seq<string>,
                         reply: Result<ExecResult, string>): (st: Outcome<Article>)
    requires PayloadOrder(order)
    ensures a.title == "" ==> st == Outcome(db, Failure(EmptyTitle))
    ensures a.title != "" && tagsJson.Failure? ==> st == Outcome(db, Failure(TagsEncoding(tagsJson.error)))
    ensures a.title != "" && tagsJson.Success? && db.handle == Pool(false) ==>
      SentExactly(db, st.db, InsertStatement(TableName, Payload(Stamped(a, now), tagsJson.value), order).value)
    ensures db.handle != Pool(false) ==> st.db == db
    ensures st.out.Success? <==> a.title != "" && tagsJson.Success? && db.handle == Pool(false)
                                 && reply.Success? && reply.value.lastInsertId.Success?
    ensures st.out.Success? ==> st.out.value == Stamped(a, now).(id := reply.value.lastInsertId.value)
  {
    if a.title == "" then Outcome(db, Failure(EmptyTitle))
    else if tagsJson.Failure? then Outcome(db, Failure(TagsEncoding(tagsJson.error)))
    else
      var b := Stamped(a, now);
      PayloadEnumerated(order, b, tagsJson.value);
      var ins := Insert(db, TableName, Payload(b, tagsJson.value), order, reply);
      match ins.out
      case Failure(e) => Outcome(ins.db, Failure(StoreFailed(e)))
      case Success(id) => Outcome(ins.db, Success(b.(id := id)))
  }

  /** `UpdateArticle`: id 0 is refused and a failed tag encoding reported,
      both before anything is sent; otherwise the payload (date as given) is
      written to the row whose id matches. */
  function UpdateArticle(db: Db, a: Article, tagsJson: Result<string, string>, order: seq<string>,
                         reply: Result<ExecResult, string>): (st: Outcome<()>)
    requires PayloadOrder(order)
    ensures a.id == 0 ==> st == Outcome(db, Failure(InvalidId))
    ensures a.id != 0 && tagsJson.Failure? ==> st == Outcome(db, Failure(TagsEncoding(tagsJson.error)))
    ensures a.id != 0 && tagsJson.Success? && db.handle == Pool(false) ==>
      SentExactly(db, st.db, UpdateStatement(TableName, Payload(a, tagsJson.value), order, IdFilter(a.id), IdOrder).value)
    ensures db.handle != Pool(false) ==> st.db == db
    ensures st.out.Success? <==> a.id != 0 && tagsJson.Success? && db.handle == Pool(false) && reply.Success?
  {
    if a.id == 0 then Outcome(db, Failure(InvalidId))
    else if tagsJson.Failure? then Outcome(db, Failure(TagsEncoding(tagsJson.error)))
    else
      PayloadEnumerated(order, a, tagsJson.value);
      IdFilterEnumerated(a.id);
      var up := Update(db, TableName, Payload(a, tagsJson.value), order, IdFilter(a.id), IdOrder, reply);
      Outcome(up.db, if up.out.Success? then Success(()) else Failure(StoreFailed(up.out.error)))
  }

  /** `DeleteArticle`: id 0 is refused before anything is sent; otherwise the
      row with that id is deleted and the answer is whether any row went. */
  function DeleteArticle(db: Db, id: int, reply: Result<ExecResult, string>): (st: Outcome<bool>)
    ensures id == 0 ==> st == Outcome(db, Failure(InvalidId))
    ensures id != 0 && db.handle == Pool(false) ==> SentExactly(db, st.db, DeleteStatement(TableName, IdFilter(id), IdOrder).value)
    ensures db.handle != Pool(false) ==> st.db == db
    ensures st.out.Success? <==> id != 0 && db.handle == Pool(false) && reply.Success? && reply.value.rowsAffected.Success?
    ensures st.out.Success? ==> (st.out.value <==> reply.value.rowsAffected.value > 0)
  {
    if id == 0 then Outcome(db, Failure(InvalidId))
    else
      IdFilterEnumerated(id);
      var del := Delete(db, TableName, IdFilter(id), IdOrder, reply);
      match del.out
      case Failure(e) => Outcome(del.db, Failure(StoreFailed(e)))
      case Success(res) =>
        match res.rowsAffected
        case Failure(e) => Outcome(del.db, Failure(RowsAffectedUnknown(e)))
        case Success(n) => Outcome(del.db, Success(n > 0))
  }

  /** A one-key filter: its only order, its sorted keys and its predicate. */
  lemma SingleKey(k: string, v: Value)
    ensures Enumerates([k], map[k := v])
    ensures SortedKeys(map[k := v], [k]) == [k]
    ensures WherePredicate([k]) == k + " = ?"
  {
    assert Conditions([k]) == [k + " = ?"];
  }

  /** Binding one value to one key gives back the one-key filter only for that value. */
  lemma BindSingle(k: string, args: seq<Value>, v: Value)
    requires |args| == 1 && Bind([k], args) == map[k := v]
    ensures args == [v]
  {
    assert Bind([k], args) == map[k := args[0]];
    assert Bind([k], args)[k] == args[0];
  }

  /** The fixed start of every SELECT on one key. */
  const SelectAllWhere := "SELECT * FROM articles WHERE "

  /** Selecting on a one-key filter. */
  lemma SelectOnKey(k: string, v: Value)
    ensures Enumerates([k], map[k := v])
    ensures SelectStatement(TableName, [], map[k := v], [k]) == Stmt(SelectAllWhere + (k + " = ?"), [v])
  {
    SingleKey(k, v);
    var st := SelectStatement(TableName, [], map[k := v], [k]);
    BindSingle(k, st.args, v);
    SelectAllWherePrefix();
  }

  lemma SelectAllWherePrefix()
    ensures "SELECT " + SelectList([]) + " FROM " + TableName + " WHERE " == SelectAllWhere
  {
  }

  /** Selecting by id reads exactly the row with that id. */
  lemma SelectByIdStatement(id: int)
    ensures SelectStatement(TableName, [], IdFilter(id), IdOrder) == Stmt("SELECT * FROM articles WHERE id = ?", [IntVal(id)])
  {
    SelectOnKey("id", IntVal(id));
    assert SelectAllWhere + ("id" + " = ?") == "SELECT * FROM articles WHERE id = ?";
  }

  /** Deleting by id removes exactly the row with that id. */
  lemma DeleteByIdStatement(id: int)
    requires id != 0
    ensures DeleteStatement(TableName, IdFilter(id), IdOrder) == Success(Stmt("DELETE FROM articles WHERE id = ?", [IntVal(id)]))
  {
    SingleKey("id", IntVal(id));
    var st := DeleteStatement(TableName, IdFilter(id), IdOrder).value;
    BindSingle("id", st.args, IntVal(id));
    assert "DELETE FROM " + TableName + " WHERE " + WherePredicate(["id"]) == "DELETE FROM articles WHERE id = ?";
  }

  // ------------------------------------------------------------------ reads

  /** One row of a result set as the scan sees it: the twelve columns failed
      to scan, or they scanned into `fields` and decoding the tag column's
      JSON gave `tags`.  Any tag list inside `fields` is ignored. */
  datatype ScannedRow = ScanFailed(msg: string) | Scanned(fields: Article, tags: Result<seq<string>, string>)

  /** The article a row holds, or why it holds none. */
  function DecodeRow(row: ScannedRow): (r: Result<Article, ArticleError>)
    ensures r.Success? <==> row.Scanned? && row.tags.Success?
    ensures r.Success? ==> r.value == row.fields.(tags := row.tags.value)
  {
    match row
    case ScanFailed(e) => Failure(RowUnreadable(e))
    case Scanned(fields, tags) =>
      match tags
      case Failure(e) => Failure(TagsUnreadable(e))
      case Success(t) => Success(fields.(tags := t))
  }

  /** The column names of the schema, in order. */
  const ColumnNames: seq<string> :=
    ["id", "title", "excerpt", "author", "date", "read_time", "likes", "comments", "views", "category", "tags", "featured"]

  lemma ColumnNamesOfSchema()
    ensures Names(ArticleColumns) == ColumnNames
  {
  }

  /** The values the store holds for a row written with payload `m` and
      given id `id`, in the schema's column order. */
  function StoredRow(id: int, m: FieldMap): (values: seq<Value>)
    requires PayloadKeys <= m.Keys
    ensures |values| == |ColumnNames| && values[0] == IntVal(id)
    ensures forall i :: 0 < i < |ColumnNames| ==> values[i] == m[ColumnNames[i]]
  {
    [IntVal(id), m["title"], m["excerpt"], m["author"], m["date"], m["read_time"], m["likes"],
     m["comments"], m["views"], m["category"], m["tags"], m["featured"]]
  }

  /** `rows.Scan` of one row into the twelve destinations of `scanArticles`,
      in column order, the tag column into a string that `unmarshal`
      (`json.Unmarshal`) then decodes.  A value of the wrong kind for its
      destination fails the scan. */
  function ScanRow(values: seq<Value>, unmarshal: string -> Result<seq<string>, string>): (row: ScannedRow)
    ensures row.Scanned? ==> |values| == |ColumnNames| && values[10].TextVal?
                             && row.tags == unmarshal(values[10].s)
    ensures row.Scanned? ==> row.fields.content == ""
    ensures |values| != |ColumnNames| ==> row.ScanFailed?
  {
    if |values| == 12 && values[0].IntVal? && values[1].TextVal? && values[2].TextVal? && values[3].TextVal?
       && values[4].TimeVal? && values[5].IntVal? && values[6].IntVal? && values[7].IntVal? && values[8].IntVal?
       && values[9].TextVal? && values[10].TextVal? && values[11].BoolVal?
    then
      var fields := Article(values[0].i, values[1].s, values[2].s, values[3].s, values[4].t, values[5].i,
                            values[6].i, values[7].i, values[8].i, values[9].s, [], values[11].b, "");
      Scanned(fields, unmarshal(values[10].s))
    else ScanFailed("converting column value")
  }

  /** Writing an article and reading its row back: every column returns to
      the field it came from, so the article decodes as written, with the
      store's id and without `content`, which has no column.  This holds as
      long as decoding the tag JSON returns the tags that were encoded. */
  lemma PayloadRoundTrip(a: Article, id: int, tagsJson: string, unmarshal: string -> Result<seq<string>, string>)
    requires unmarshal(tagsJson) == Success(a.tags)
    ensures DecodeRow(ScanRow(StoredRow(id, Payload(a, tagsJson)), unmarshal)) == Success(a.(id := id, content := ""))
  {
  }

  /** Every row up to `n` decodes. */
  predicate DecodesUpTo(rows: seq<ScannedRow>, n: nat)
    requires n <= |rows|
  {
    forall j :: 0 <= j < n ==> DecodeRow(rows[j]).Success?
  }

  /** `scanArticles`: decode the rows in order, stopping at the first row
      that does not decode; after the last row, report the cursor's own
      error if it has one. */
  method ScanArticles(c: Cursor<ScannedRow>) returns (r: Result<seq<Article>, ArticleError>)
    ensures r.Success? <==> DecodesUpTo(c.rows, |c.rows|) && c.err.None?
    ensures r.Success? ==> |r.value| == |c.rows|
    ensures r.Success? ==> forall i :: 0 <= i < |c.rows| ==> DecodeRow(c.rows[i]) == Success(r.value[i])
    ensures forall k :: 0 <= k < |c.rows| && DecodesUpTo(c.rows, k) && DecodeRow(c.rows[k]).Failure? ==>
      r == Failure(DecodeRow(c.rows[k]).error)
    ensures DecodesUpTo(c.rows, |c.rows|) && c.err.Some? ==> r == Failure(Iteration(c.err.value))
  {
    var articles: seq<Article> := [];
    var i := 0;
    while i < |c.rows|
      invariant 0 <= i <= |c.rows|
      invariant |articles| == i
      invariant DecodesUpTo(c.rows, i)
      invariant forall j :: 0 <= j < i ==> DecodeRow(c.rows[j]) == Success(articles[j])
    {
      var d := DecodeRow(c.rows[i]);
      if d.Failure? {
        return Failure(d.error);
      }
      articles := articles + [d.value];
      i := i + 1;
    }
    if c.err.Some? {
      return Failure(Iteration(c.err.value));
    }
    return Success(articles);
  }

  /** `GetArticleByID`: select the row with the id; no row is `NoRows`;
      otherwise the first row is decoded.  Rows after the first and the
      cursor's own error are not looked at. */
  function GetArticleById(db: Db, id: int, reply: Result<Cursor<ScannedRow>, string>): (st: Outcome<Article>)
    ensures db.handle == Pool(false) ==> SentExactly(db, st.db, SelectStatement(TableName, [], IdFilter(id), IdOrder))
    ensures db.handle != Pool(false) ==> st == Outcome(db, Failure(StoreFailed(if db.handle == NoHandle then NotInitialised else PoolClosed)))
    ensures st.out == Failure(NoRows) <==> db.handle == Pool(false) && reply.Success? && |reply.value.rows| == 0
    ensures st.out.Success? <==>
      db.handle == Pool(false) && reply.Success? && |reply.value.rows| > 0 && DecodeRow(reply.value.rows[0]).Success?
    ensures st.out.Success? ==> DecodeRow(reply.value.rows[0]) == Success(st.out.value)
  {
    IdFilterEnumerated(id);
    var sel := Select(db, TableName, [], IdFilter(id), IdOrder, reply);
    match sel.out
    case Failure(e) => Outcome(sel.db, Failure(StoreFailed(e)))
    case Success(cursor) =>
      if |cursor.rows| == 0 then Outcome(sel.db, Failure(NoRows))
      else Outcome(sel.db, DecodeRow(cursor.rows[0]))
  }

  /** `r` is what scanning the reply's rows gives: success iff the query
      reached an open pool, was answered, every row decodes and iteration
      ended cleanly; then one article per row, each the row's decoding. */
  predicate RowsRead(db: Db, reply: Result<Cursor<ScannedRow>, string>, r: Result<seq<Article>, ArticleError>)
  {
    && (r.Success? <==> db.handle == Pool(false) && reply.Success?
                        && DecodesUpTo(reply.value.rows, |reply.value.rows|) && reply.value.err.None?)
    && (r.Success? ==> |r.value| == |reply.value.rows|
                       && forall i :: 0 <= i < |r.value| ==> DecodeRow(reply.value.rows[i]) == Success(r.value[i]))
  }

  /** Send a query and scan its rows into articles. */
  method QueryArticles(db: Db, s: Stmt, reply: Result<Cursor<ScannedRow>, string>)
    returns (db': Db, r: Result<seq<Article>, ArticleError>)
    ensures db.handle == Pool(false) ==> SentExactly(db, db', s)
    ensures db.handle != Pool(false) ==> db' == db && r.Failure?
    ensures r.Success? <==> db.handle == Pool(false) && reply.Success?
                            && DecodesUpTo(reply.value.rows, |reply.value.rows|) && reply.value.err.None?
    ensures r.Success? ==> |r.value| == |reply.value.rows|
    ensures r.Success? ==> forall i :: 0 <= i < |r.value| ==> DecodeRow(reply.value.rows[i]) == Success(r.value[i])
    ensures RowsRead(db, reply, r)
  {
    var sent := Send(db, s, reply);
    db' := sent.db;
    match sent.out {
      case Failure(e) =>
        r := Failure(StoreFailed(e));
      case Success(cursor) =>
        r := ScanArticles(cursor);
    }
  }

  const ListHead := "SELECT * FROM articles WHERE 1=1"
  const TagFilterOpen := " AND JSON_CONTAINS(tags, JSON_ARRAY("
  const TagFilterClose := "))"
  const TagFilter := TagFilterOpen + "?" + TagFilterClose
  const LimitClause := " ORDER BY date DESC LIMIT "
  const OffsetClause := " OFFSET "
  const ListTail := LimitClause + "?" + OffsetClause + "?"

  /** The raw listing query: newest first, one page of `limit` rows from
      `offset`, narrowed to articles carrying `tag` when one is given. */
  function ListStatement(limit: int, offset: int, tag: string): (s: Stmt)
    ensures |s.args| == (if tag != "" then 3 else 2)
    ensures s.args[|s.args| - 2..] == [IntVal(limit), IntVal(offset)]
    ensures tag != "" ==> s.args[0] == TextVal(tag)
    ensures HasPrefix(s.sql, ListHead)
    ensures OccursAt(s.sql, TagFilter, |ListHead|) <==> tag != ""
  {
    var filter := if tag != "" then TagFilter else "";
    var sql := ListHead + filter + ListTail;
    assert sql[..|ListHead|] == ListHead;
    assert sql[|ListHead|..|ListHead| + |filter|] == filter;
    assert tag == "" ==> sql[|ListHead|..] == ListTail;
    assert ListTail[1] != TagFilter[1];
    Stmt(sql, (if tag != "" then [TextVal(tag)] else []) + [IntVal(limit), IntVal(offset)])
  }

  /** The listing query has one `?` per parameter: one in the tag filter
      when it is present, and two in the fixed tail for limit and offset. */
  lemma ListPlaceholders(limit: int, offset: int, tag: string)
    ensures var s := ListStatement(limit, offset, tag);
      CountChar(s.sql, '?') == |s.args|
  {
    var filter := if tag != "" then TagFilter else "";
    var s := ListStatement(limit, offset, tag);
    assert s.sql == ListHead + filter + ListTail;
    ListHeadCount();
    TagFilterCount();
    ListTailCount();
    CountCharConcat(ListHead, filter, '?');
    CountCharConcat(ListHead + filter, ListTail, '?');
  }

  lemma ListHeadCount()
    ensures CountChar(ListHead, '?') == 0
  {
    assert NoMark(ListHead);
    CountCharAbsent(ListHead, '?');
  }

  lemma TagFilterCount()
    ensures CountChar(TagFilter, '?') == 1
  {
    TagFilterOpenFree();
    TagFilterCloseFree();
    OneMark(TagFilterOpen, TagFilterClose);
  }

  lemma ListTailCount()
    ensures CountChar(ListTail, '?') == 2
  {
    LimitClauseFree();
    OffsetClauseFree();
    TwoMarks(LimitClause, OffsetClause);
  }

  lemma TagFilterOpenFree()
    ensures CountChar(TagFilterOpen, '?') == 0
  {
    MarkFree(TagFilterOpen);
  }

  lemma TagFilterCloseFree()
    ensures CountChar(TagFilterClose, '?') == 0
  {
    MarkFree(TagFilterClose);
  }

  lemma LimitClauseFree()
    ensures CountChar(LimitClause, '?') == 0
  {
    MarkFree(LimitClause);
  }

  lemma OffsetClauseFree()
    ensures CountChar(OffsetClause, '?') == 0
  {
    MarkFree(OffsetClause);
  }

  lemma MarkFree(s: string)
    requires NoMark(s)
    ensures CountChar(s, '?') == 0
  {
    CountCharAbsent(s, '?');
  }

  lemma OneMark(a: string, b: string)
    requires CountChar(a, '?') == 0 && CountChar(b, '?') == 0
    ensures CountChar(a + "?" + b, '?') == 1
  {
    assert CountChar("?", '?') == 1;
    CountCharConcat(a, "?", '?');
    CountCharConcat(a + "?", b, '?');
  }

  lemma TwoMarks(a: string, b: string)
    requires CountChar(a, '?') == 0 && CountChar(b, '?') == 0
    ensures CountChar(a + "?" + b + "?", '?') == 2
  {
    assert CountChar("?", '?') == 1;
    CountCharConcat(a, "?", '?');
    CountCharConcat(a + "?", b, '?');
    CountCharConcat(a + "?" + b, "?", '?');
  }

  /** `ListArticles`: the category and featured filters are collected into a
      map that never reaches the query, so the statement depends only on
      `limit`, `offset` and `tag`. */
  method ListArticles(db: Db, limit: int, offset: int, category: string, tag: string, featuredOnly: bool,
                      reply: Result<Cursor<ScannedRow>, string>)
    returns (db': Db, r: Result<seq<Article>, ArticleError>)
    ensures db.handle == Pool(false) ==> SentExactly(db, db', ListStatement(limit, offset, tag))
    ensures db.handle != Pool(false) ==> db' == db && r.Failure?
    ensures RowsRead(db, reply, r)
  {
    var unused := ListFilters(category, featuredOnly);
    db', r := QueryArticles(db, ListStatement(limit, offset, tag), reply);
  }

  /** The filters `ListArticles` collects: a category when one is given and
      `featured = true` when only featured articles are wanted. */
  function ListFilters(category: string, featuredOnly: bool): (m: FieldMap)
    ensures "category" in m <==> category != ""
    ensures "featured" in m <==> featuredOnly
    ensures m.Keys <= {"category", "featured"}
  {
    var m: FieldMap := if category != "" then map["category" := TextVal(category)] else map[];
    if featuredOnly then m["featured" := BoolVal(true)] else m
  }

  const SearchSql := "\n\t\t\tSELECT * FROM articles \n\t\t\tWHERE MATCH(title, excerpt, content) AGAINST(? IN NATURAL LANGUAGE MODE)\n\t\t\tORDER BY MATCH(title, excerpt, content) AGAINST(? IN NATURAL LANGUAGE MODE) DESC\n\t\t\tLIMIT ?\n\t\t"

  /** The full-text search: the query text is bound twice (filter and
      ranking), then the limit. */
  function SearchStatement(query: string, limit: int): (s: Stmt)
    ensures s.args == [TextVal(query), TextVal(query), IntVal(limit)]
  {
    Stmt(SearchSql, [TextVal(query), TextVal(query), IntVal(limit)])
  }

  method SearchArticles(db: Db, query: string, limit: int, reply: Result<Cursor<ScannedRow>, string>)
    returns (db': Db, r: Result<seq<Article>, ArticleError>)
    ensures db.handle == Pool(false) ==> SentExactly(db, db', SearchStatement(query, limit))
    ensures db.handle != Pool(false) ==> db' == db && r.Failure?
    ensures RowsRead(db, reply, r)
  {
    db', r := QueryArticles(db, SearchStatement(query, limit), reply);
  }

  /** The newest `limit` articles. */
  function RecentStatement(limit: int): (s: Stmt)
    ensures s.args == [IntVal(limit)]
  {
    Stmt("SELECT * FROM articles ORDER BY date DESC LIMIT ?", [IntVal(limit)])
  }

  method GetRecentArticles(db: Db, limit: int, reply: Result<Cursor<ScannedRow>, string>)
    returns (db': Db, r: Result<seq<Article>, ArticleError>)
    ensures db.handle == Pool(false) ==> SentExactly(db, db', RecentStatement(limit))
    ensures db.handle != Pool(false) ==> db' == db && r.Failure?
    ensures RowsRead(db, reply, r)
  {
    db', r := QueryArticles(db, RecentStatement(limit), reply);
  }

  /** `{"featured": true}` and `{"category": c}`. */
  function FeaturedFilter(): (m: FieldMap)
    ensures m.Keys == {"featured"} && m["featured"] == BoolVal(true)
  {
    map["featured" := BoolVal(true)]
  }

  function CategoryFilter(category: string): (m: FieldMap)
    ensures m.Keys == {"category"} && m["category"] == TextVal(category)
  {
    map["category" := TextVal(category)]
  }

  /** `GetFeaturedArticles`: every featured article; `limit` is never used. */
  method GetFeaturedArticles(db: Db, limit: int, reply: Result<Cursor<ScannedRow>, string>)
    returns (db': Db, r: Result<seq<Article>, ArticleError>)
    ensures db.handle == Pool(false) ==> SentExactly(db, db', SelectStatement(TableName, [], FeaturedFilter(), ["featured"]))
    ensures db.handle != Pool(false) ==> db' == db && r.Failure?
    ensures RowsRead(db, reply, r)
  {
    db', r := QueryArticles(db, SelectStatement(TableName, [], FeaturedFilter(), ["featured"]), reply);
  }

  /** `GetArticlesByCategory`: every article in the category; `limit` is never used. */
  method GetArticlesByCategory(db: Db, category: string, limit: int, reply: Result<Cursor<ScannedRow>, string>)
    returns (db': Db, r: Result<seq<Article>, ArticleError>)
    ensures db.handle == Pool(false) ==>
      SentExactly(db, db', SelectStatement(TableName, [], CategoryFilter(category), ["category"]))
    ensures db.handle != Pool(false) ==> db' == db && r.Failure?
    ensures RowsRead(db, reply, r)
  {
    db', r := QueryArticles(db, SelectStatement(TableName, [], CategoryFilter(category), ["category"]), reply);
  }

  /** The featured listing asks for every featured row. */
  lemma FeaturedStatement()
    ensures SelectStatement(TableName, [], FeaturedFilter(), ["featured"])
         == Stmt("SELECT * FROM articles WHERE featured = ?", [BoolVal(true)])
  {
    SelectOnKey("featured", BoolVal(true));
    assert SelectAllWhere + ("featured" + " = ?") == "SELECT * FROM articles WHERE featured = ?";
  }

  /** The category listing asks for every row of that category. */
  lemma CategoryStatement(category: string)
    ensures SelectStatement(TableName, [], CategoryFilter(category), ["category"])
         == Stmt("SELECT * FROM articles WHERE category = ?", [TextVal(category)])
  {
    SelectOnKey("category", TextVal(category));
    assert SelectAllWhere + ("category" + " = ?") == "SELECT * FROM articles WHERE category = ?";
  }
}

=== FILE: base64.dfy ===
/** Go's `base64.RawStdEncoding`: the alphabet of section 4 of RFC 4648
    with no padding.  Decoding is Go's lenient one: carriage returns and
    line feeds are skipped, the unused low bits of a final partial group
    are ignored, and a final group of a single character, `=` or any other
    character outside the alphabet is an error. */
module Base64 {
  import opened Results

  type byte = x: int | 0 <= x < 256

  /** A six-bit value: one character of the encoding. */
  type sextet = x: int | 0 <= x < 64

  function CharOf(v: sextet): char
  {
    if v < 26 then ('A' as int + v) as char
    else if v < 52 then ('a' as int + (v - 26)) as char
    else if v < 62 then ('0' as int + (v - 52)) as char
    else if v == 62 then '+'
    else '/'
  }

  function IndexOf(c: char): Option<sextet>
  {
    if 'A' <= c <= 'Z' then Some(c as int - 'A' as int)
    else if 'a' <= c <= 'z' then Some(c as int - 'a' as int + 26)
    else if '0' <= c <= '9' then Some(c as int - '0' as int + 52)
    else if c == '+' then Some(62)
    else if c == '/' then Some(63)
    else None
  }

  predicate InAlphabet(c: char)
  {
    IndexOf(c).Some?
  }

  /** The alphabet table and its inverse agree, in both directions. */
  lemma IndexOfCharOf(v: sextet)
    ensures IndexOf(CharOf(v)) == Some(v)
  {
  }

  lemma CharOfIndexOf(c: char)
    requires InAlphabet(c)
    ensures CharOf(IndexOf(c).value) == c
  {
  }

  /** Neither the field separator `$` nor a line break is in the alphabet. */
  lemma NotInAlphabet()
    ensures !InAlphabet('$') && !InAlphabet('\n') && !InAlphabet('\r') && !InAlphabet('=')
  {
  }

  /** Number of characters encoding `n` bytes without padding. */
  function EncodedLength(n: nat): nat
  {
    if n >= 3 then 4 + EncodedLength(n - 3) else if n == 0 then 0 else n + 1
  }

  /** The same count as Go's `EncodedLen` computes it for unpadded output. */
  lemma {:induction false} EncodedLengthFormula(n: nat)
    ensures EncodedLength(n) == n / 3 * 4 + (n % 3 * 8 + 5) / 6
  {
    if n >= 3 {
      EncodedLengthFormula(n - 3);
    }
  }

  /** Three bytes as four characters. */
  function Quad(a: byte, b: byte, c: byte): (g: string)
    ensures |g| == 4 && AllInAlphabet(g)
  {
    IndexOfCharOf(a / 4);
    IndexOfCharOf(a % 4 * 16 + b / 16);
    IndexOfCharOf(b % 16 * 4 + c / 64);
    IndexOfCharOf(c % 64);
    [CharOf(a / 4), CharOf(a % 4 * 16 + b / 16), CharOf(b % 16 * 4 + c / 64), CharOf(c % 64)]
  }

  /** A final two bytes as three characters, the last two bits zero. */
  function Triple(a: byte, b: byte): (g: string)
    ensures |g| == 3 && AllInAlphabet(g)
  {
    IndexOfCharOf(a / 4);
    IndexOfCharOf(a % 4 * 16 + b / 16);
    IndexOfCharOf(b % 16 * 4);
    [CharOf(a / 4), CharOf(a % 4 * 16 + b / 16), CharOf(b % 16 * 4)]
  }

  /** A final byte as two characters, the last four bits zero. */
  function Duo(a: byte): (g: string)
    ensures |g| == 2 && AllInAlphabet(g)
  {
    IndexOfCharOf(a / 4);
    IndexOfCharOf(a % 4 * 16);
    [CharOf(a / 4), CharOf(a % 4 * 16)]
  }

  /** Each group of three bytes becomes four characters; a final one or two
      bytes become two or three. */
  function Encode(bs: seq<byte>): (s: string)
    ensures |s| == EncodedLength(|bs|)
    ensures AllInAlphabet(s)
    decreases |bs|
  {
    if |bs| >= 3 then
      var s := Quad(bs[0], bs[1], bs[2]) + Encode(bs[3..]);
      AlphabetSplit(s, 4);
      s
    else if |bs| == 2 then Triple(bs[0], bs[1])
    else if |bs| == 1 then Duo(bs[0])
    else []
  }

  datatype Base64Error = CorruptInput

  /** The input with every carriage return and line feed removed. */
  function StripNewlines(s: string): (r: string)
    ensures forall i :: 0 <= i < |r| ==> r[i] != '\n' && r[i] != '\r'
    ensures (forall i :: 0 <= i < |s| ==> s[i] != '\n' && s[i] != '\r') ==> r == s
  {
    if |s| == 0 then ""
    else if s[0] == '\n' || s[0] == '\r' then StripNewlines(s[1..])
    else [s[0]] + StripNewlines(s[1..])
  }

  predicate AllInAlphabet(s: string)
  {
    forall i :: 0 <= i < |s| ==> InAlphabet(s[i])
  }

  /** The bytes a group of two to four characters stands for: those of the
      24-bit value `d0 d1 d2 d3` that the group fills completely. */
  function DecodeGroup(g: string): (bs: seq<byte>)
    requires 2 <= |g| <= 4 && AllInAlphabet(g)
    ensures |bs| == |g| - 1
  {
    var d0, d1 := IndexOf(g[0]).value, IndexOf(g[1]).value;
    var d2 := if |g| > 2 then IndexOf(g[2]).value else 0;
    var d3 := if |g| > 3 then IndexOf(g[3]).value else 0;
    [d0 * 4 + d1 / 16]
    + (if |g| > 2 then [d1 % 16 * 16 + d2 / 4] else [])
    + (if |g| > 3 then [d2 % 4 * 64 + d3] else [])
  }

  /** Length of the decoded data, when decoding succeeds. */
  function DecodedLength(n: nat): nat
  {
    if n >= 4 then 3 + DecodedLength(n - 4) else if n == 0 then 0 else n - 1
  }

  /** Decoding of text without line breaks, four characters at a time. */
  function DecodeClean(s: string): Result<seq<byte>, Base64Error>
    decreases |s|
  {
    if |s| == 0 then Success([])
    else
      var n := if |s| < 4 then |s| else 4;
      if n == 1 || !AllInAlphabet(s[..n]) then Failure(CorruptInput)
      else
        match DecodeClean(s[n..])
        case Failure(e) => Failure(e)
        case Success(tail) => Success(DecodeGroup(s[..n]) + tail)
  }

  /** Decoding fails exactly when a character is outside the alphabet or a
      single character is left over at the end; otherwise every four
      characters give three bytes and a final two or three give one or two. */
  lemma {:induction false} DecodeCleanOutcome(s: string)
    ensures DecodeClean(s).Failure? <==> |s| % 4 == 1 || !AllInAlphabet(s)
    ensures DecodeClean(s).Success? ==> |DecodeClean(s).value| == DecodedLength(|s|)
    decreases |s|
  {
    if |s| == 0 {
    } else if |s| < 4 {
      AlphabetSplit(s, |s|);
      assert s[..|s|] == s;
      if |s| > 1 && AllInAlphabet(s) {
        assert s[|s|..] == [];
        assert DecodeClean(s[|s|..]) == Success([]);
      }
    } else {
      AlphabetSplit(s, 4);
      Mod4Step(|s| - 4);
      if AllInAlphabet(s[..4]) {
        DecodeCleanOutcome(s[4..]);
      }
    }
  }

  lemma Mod4Step(k: nat)
    ensures (k + 4) % 4 == k % 4
  {
  }

  lemma AlphabetSplit(s: string, n: nat)
    requires n <= |s|
    ensures AllInAlphabet(s) <==> AllInAlphabet(s[..n]) && AllInAlphabet(s[n..])
  {
    if AllInAlphabet(s[..n]) && AllInAlphabet(s[n..]) {
      forall i | 0 <= i < |s| ensures InAlphabet(s[i]) {
        if i < n { assert s[i] == s[..n][i]; } else { assert s[i] == s[n..][i - n]; }
      }
    }
  }

  /** `DecodeString`: line breaks are skipped, the rest decoded. */
  function Decode(s: string): (r: Result<seq<byte>, Base64Error>)
    ensures r.Failure? <==> |StripNewlines(s)| % 4 == 1 || !AllInAlphabet(StripNewlines(s))
    ensures r.Success? ==> |r.value| == DecodedLength(|StripNewlines(s)|)
  {
    DecodeCleanOutcome(StripNewlines(s));
    DecodeClean(StripNewlines(s))
  }

  /** Taking the six-bit values apart again: the high and low parts of each
      sum are the two pieces it was made from. */
  lemma Split16(hi: int, lo: int)
    requires 0 <= hi && 0 <= lo < 16
    ensures (hi * 16 + lo) / 16 == hi && (hi * 16 + lo) % 16 == lo
  {
  }

  lemma Split4(hi: int, lo: int)
    requires 0 <= hi && 0 <= lo < 4
    ensures (hi * 4 + lo) / 4 == hi && (hi * 4 + lo) % 4 == lo
  {
  }

  lemma Recombine(x: int)
    requires 0 <= x
    ensures x / 4 * 4 + x % 4 == x && x / 16 * 16 + x % 16 == x && x / 64 * 64 + x % 64 == x
  {
  }

  /** Each group decodes to the bytes it encodes. */
  lemma QuadRoundTrip(a: byte, b: byte, c: byte)
    ensures DecodeGroup(Quad(a, b, c)) == [a, b, c]
  {
    var g := Quad(a, b, c);
    IndexOfCharOf(a / 4);
    IndexOfCharOf(a % 4 * 16 + b / 16);
    IndexOfCharOf(b % 16 * 4 + c / 64);
    IndexOfCharOf(c % 64);
    Split16(a % 4, b / 16);
    Split4(b % 16, c / 64);
    Recombine(a);
    Recombine(b);
    Recombine(c);
  }

  lemma TripleRoundTrip(a: byte, b: byte)
    ensures DecodeGroup(Triple(a, b)) == [a, b]
  {
    IndexOfCharOf(a / 4);
    IndexOfCharOf(a % 4 * 16 + b / 16);
    IndexOfCharOf(b % 16 * 4);
    Split16(a % 4, b / 16);
    Split4(b % 16, 0);
    Recombine(a);
    Recombine(b);
  }

  lemma DuoRoundTrip(a: byte)
    ensures DecodeGroup(Duo(a)) == [a]
  {
    IndexOfCharOf(a / 4);
    IndexOfCharOf(a % 4 * 16);
    Split16(a % 4, 0);
    Recombine(a);
  }

  /** Decoding inverts encoding. */
  lemma {:induction false} RoundTrip(bs: seq<byte>)
    ensures Decode(Encode(bs)) == Success(bs)
  {
    var s := Encode(bs);
    assert StripNewlines(s) == s by {
      NotInAlphabet();
    }
    CleanRoundTrip(bs);
  }

  lemma {:induction false} CleanRoundTrip(bs: seq<byte>)
    ensures DecodeClean(Encode(bs)) == Success(bs)
    decreases |bs|
  {
    var s := Encode(bs);
    if |bs| >= 3 {
      QuadRoundTrip(bs[0], bs[1], bs[2]);
      CleanRoundTrip(bs[3..]);
      FirstGroup(bs);
      DecodeStep(s, bs[3..]);
      assert bs == [bs[0], bs[1], bs[2]] + bs[3..];
    } else if |bs| == 2 {
      TripleRoundTrip(bs[0], bs[1]);
      LastGroup(s);
      assert bs == [bs[0], bs[1]];
    } else if |bs| == 1 {
      DuoRoundTrip(bs[0]);
      LastGroup(s);
      assert bs == [bs[0]];
    }
  }

  /** An encoding of three or more bytes starts with the group of the first three. */
  lemma FirstGroup(bs: seq<byte>)
    requires |bs| >= 3
    ensures |Encode(bs)| >= 4
    ensures Encode(bs)[..4] == Quad(bs[0], bs[1], bs[2])
    ensures Encode(bs)[4..] == Encode(bs[3..])
  {
  }

  /** Decoding takes the first four characters as one group. */
  lemma DecodeStep(s: string, tail: seq<byte>)
    requires |s| >= 4 && AllInAlphabet(s[..4])
    requires DecodeClean(s[4..]) == Success(tail)
    ensures DecodeClean(s) == Success(DecodeGroup(s[..4]) + tail)
  {
  }

  /** A group of two or three characters is decoded on its own. */
  lemma LastGroup(s: string)
    requires 2 <= |s| <= 3 && AllInAlphabet(s)
    ensures DecodeClean(s) == Success(DecodeGroup(s))
  {
    assert s[..|s|] == s;
    assert s[|s|..] == [];
    assert DecodeClean([]) == Success([]);
    assert DecodeGroup(s[..|s|]) + [] == DecodeGroup(s);
  }

  /** An encoding never contains the `$` that separates the fields of an
      encoded hash. */
  lemma NoDollar(bs: seq<byte>)
    ensures '$' !in Encode(bs)
  {
    NotInAlphabet();
  }
}

=== FILE: database.dfy ===
/** The `Database` wrapper: a possibly absent connection pool and the
    statements it has handed to the store, in order.  What the store
    answers (rows, affected counts, insert ids, error text) is an input of
    every operation, so each operation is a pure step from one wrapper
    state to the next. */
module Database {
  import opened Results
  import opened Text
  import opened Fmt
  import opened SqlBuilder

  /** The wrapped `*sql.DB`: nil, or a pool that may since have been closed. */
  datatype Handle = NoHandle | Pool(closed: bool)

  /** The wrapper and the log of every statement sent through it. */
  datatype Db = Db(handle: Handle, issued: seq<Stmt>)

  /** Why an operation failed: refused by the builder before anything was
      sent, no pool to send to, a pool already closed, the store's own
      error, or the store's failure to report the new row's id. */
  datatype DbError =
    | Usage(reason: UsageError)
    | NotInitialised
    | PoolClosed
    | Driver(msg: string)
    | NoInsertId(msg: string)

  /** What an executed statement reports back; either part may fail. */
  datatype ExecResult = ExecResult(lastInsertId: Result<int, string>, rowsAffected: Result<int, string>)

  /** The rows a query yields, then the error (if any) that ended iteration. */
  datatype Cursor<R> = Cursor(rows: seq<R>, err: Option<string>)

  /** The wrapper after an operation, and the operation's outcome. */
  datatype Step<T> = Step(db: Db, out: Result<T, DbError>)

  /** Going from `before` to `after`, exactly `s` was sent and nothing else changed. */
  predicate SentExactly(before: Db, after: Db, s: Stmt)
  {
    after == Db(before.handle, before.issued + [s])
  }

  /** `Exec`, `Query` and `QueryRow`: with no pool the wrapper answers
      "not initialised" itself; a closed pool refuses; an open pool sends
      the statement and passes on the store's reply. */
  function Send<T>(db: Db, s: Stmt, reply: Result<T, string>): (st: Step<T>)
    ensures db.handle == Pool(false) ==> SentExactly(db, st.db, s)
    ensures db.handle != Pool(false) ==> st.db == db && st.out.Failure?
    ensures db.handle == NoHandle ==> st.out == Failure(NotInitialised)
    ensures st.out.Success? <==> db.handle == Pool(false) && reply.Success?
    ensures st.out.Success? ==> st.out.value == reply.value
  {
    match db.handle
    case NoHandle => Step(db, Failure(NotInitialised))
    case Pool(closed) =>
      if closed then Step(db, Failure(PoolClosed))
      else
        var db' := Db(db.handle, db.issued + [s]);
        match reply
        case Success(v) => Step(db', Success(v))
        case Failure(e) => Step(db', Failure(Driver(e)))
  }

  /** `Close`: closes an open pool once; closing again, or closing a wrapper
      without a pool, succeeds and changes nothing.  `closeErr` is what
      closing the pool's connections reported. */
  function Close(db: Db, closeErr: Option<string>): (st: Step<()>)
    ensures st.db.issued == db.issued
    ensures db.handle == NoHandle ==> st.db == db && st.out.Success?
    ensures db.handle.Pool? ==> st.db.handle == Pool(true)
    ensures st.out.Failure? <==> db.handle == Pool(false) && closeErr.Some?
  {
    match db.handle
    case NoHandle => Step(db, Success(()))
    case Pool(closed) =>
      if closed then Step(db, Success(()))
      else Step(Db(Pool(true), db.issued), if closeErr.Some? then Failure(Driver(closeErr.value)) else Success(()))
  }

  /** Closing twice is closing once. */
  lemma CloseIdempotent(db: Db, e1: Option<string>, e2: Option<string>)
    ensures Close(Close(db, e1).db, e2) == Step(Close(db, e1).db, Success(()))
  {
  }

  /** After `Close`, nothing more reaches the store. */
  lemma NothingSentAfterClose<T>(db: Db, e: Option<string>, s: Stmt, reply: Result<T, string>)
    ensures Send(Close(db, e).db, s, reply).db == Close(db, e).db
  {
  }

  /** MySQL's error number for a duplicate key. */
  const DuplicateEntry: nat := 1062

  /** `fmt.Sprintf("Error %d", MySQLDuplicateError)`. */
  function DuplicateMarker(): string
  {
    "Error " + Decimal(DuplicateEntry)
  }

  /** `IsDuplicateError`: no error is no duplicate; otherwise the error text
      must contain "Error 1062" somewhere. */
  function IsDuplicateError(err: Option<string>): (r: bool)
    ensures err.None? ==> !r
    ensures err.Some? ==> (r <==> exists i: nat :: OccursAt(err.value, "Error 1062", i))
  {
    assert DuplicateMarker() == "Error 1062";
    ContainsIffOccurs(if err.Some? then err.value else "", DuplicateMarker());
    err.Some? && Contains(err.value, DuplicateMarker())
  }

  /** `CreateTable`: refuses an empty column list without sending anything;
      otherwise sends the one CREATE TABLE statement. */
  function CreateTable(db: Db, name: string, cols: seq<ColumnDefinition>, reply: Result<ExecResult, string>): (st: Step<()>)
    ensures |cols| == 0 ==> st == Step(db, Failure(Usage(NoColumns)))
    ensures |cols| > 0 && db.handle == Pool(false) ==> SentExactly(db, st.db, CreateTableStatement(name, cols).value)
    ensures db.handle != Pool(false) ==> st.db == db
    ensures st.out.Success? <==> |cols| > 0 && db.handle == Pool(false) && reply.Success?
  {
    match CreateTableStatement(name, cols)
    case Failure(e) => Step(db, Failure(Usage(e)))
    case Success(s) =>
      var sent := Send(db, s, reply);
      Step(sent.db, if sent.out.Success? then Success(()) else Failure(sent.out.error))
  }

  /** `Insert`: refuses an empty map without sending anything; otherwise
      sends the INSERT over the sorted keys and returns the id the store
      reports, failing if it reports none. */
  function Insert(db: Db, table: string, data: FieldMap, order: seq<string>, reply: Result<ExecResult, string>): (st: Step<int>)
    requires Enumerates(order, data)
    ensures |data| == 0 ==> st == Step(db, Failure(Usage(NoInsertData)))
    ensures |data| > 0 && db.handle == Pool(false) ==> SentExactly(db, st.db, InsertStatement(table, data, order).value)
    ensures db.handle != Pool(false) ==> st.db == db
    ensures st.out.Success? <==>
      |data| > 0 && db.handle == Pool(false) && reply.Success? && reply.value.lastInsertId.Success?
    ensures st.out.Success? ==> st.out.value == reply.value.lastInsertId.value
  {
    match InsertStatement(table, data, order)
    case Failure(e) => Step(db, Failure(Usage(e)))
    case Success(s) =>
      var sent := Send(db, s, reply);
      var out :=
        match sent.out
        case Failure(e) => Failure(e)
        case Success(res) =>
          match res.lastInsertId
          case Success(id) => Success(id)
          case Failure(e) => Failure(NoInsertId(e));
      Step(sent.db, out)
  }

  /** `Delete`: refuses an empty filter without sending anything. */
  function Delete(db: Db, table: string, where: FieldMap, order: seq<string>, reply: Result<ExecResult, string>): (st: Step<ExecResult>)
    requires Enumerates(order, where)
    ensures |where| == 0 ==> st == Step(db, Failure(Usage(DeleteWithoutWhere)))
    ensures |where| > 0 && db.handle == Pool(false) ==> SentExactly(db, st.db, DeleteStatement(table, where, order).value)
    ensures db.handle != Pool(false) ==> st.db == db
    ensures st.out.Success? <==> |where| > 0 && db.handle == Pool(false) && reply.Success?
    ensures st.out.Success? ==> st.out.value == reply.value
  {
    match DeleteStatement(table, where, order)
    case Failure(e) => Step(db, Failure(Usage(e)))
    case Success(s) => Send(db, s, reply)
  }

  /** `Update`: refuses an empty payload, then an empty filter, without
      sending anything. */
  function Update(db: Db, table: string, data: FieldMap, dataOrder: seq<string>,
                  where: FieldMap, whereOrder: seq<string>, reply: Result<ExecResult, string>): (st: Step<ExecResult>)
    requires Enumerates(dataOrder, data) && Enumerates(whereOrder, where)
    ensures |data| == 0 ==> st == Step(db, Failure(Usage(NoUpdateData)))
    ensures |data| > 0 && |where| == 0 ==> st == Step(db, Failure(Usage(UpdateWithoutWhere)))
    ensures |data| > 0 && |where| > 0 && db.handle == Pool(false) ==>
      SentExactly(db, st.db, UpdateStatement(table, data, dataOrder, where, whereOrder).value)
    ensures db.handle != Pool(false) ==> st.db == db
    ensures st.out.Success? <==> |data| > 0 && |where| > 0 && db.handle == Pool(false) && reply.Success?
    ensures st.out.Success? ==> st.out.value == reply.value
  {
    match UpdateStatement(table, data, dataOrder, where, whereOrder)
    case Failure(e) => Step(db, Failure(Usage(e)))
    case Success(s) => Send(db, s, reply)
  }

  /** `Select`: always builds a statement and sends it as a query. */
  function Select<R>(db: Db, table: string, columns: seq<string>, where: FieldMap, order: seq<string>,
                     reply: Result<Cursor<R>, string>): (st: Step<Cursor<R>>)
    requires Enumerates(order, where)
    ensures db.handle == Pool(false) ==> SentExactly(db, st.db, SelectStatement(table, columns, where, order))
    ensures db.handle != Pool(false) ==> st.db == db
    ensures st.out.Success? <==> db.handle == Pool(false) && reply.Success?
    ensures st.out.Success? ==> st.out.value == reply.value
  {
    Send(db, SelectStatement(table, columns, where, order), reply)
  }

  /** Every operation sends at most one statement, and only through an open
      pool: here, whatever a refused write would have sent, it sent nothing. */
  lemma RefusedWritesSendNothing(db: Db, table: string, data: FieldMap, dataOrder: seq<string>,
                                 where: FieldMap, whereOrder: seq<string>, reply: Result<ExecResult, string>)
    requires Enumerates(dataOrder, data) && Enumerates(whereOrder, where)
    requires |where| == 0
    ensures Update(db, table, data, dataOrder, where, whereOrder, reply).db == db
    ensures Delete(db, table, where, whereOrder, reply).db == db
  {
  }
}

=== FILE: fmt.dfy ===
/** The two `fmt` verbs the core relies on: `%d` when printing a
    non-negative integer (`fmt.Sprintf`) and `%d` when scanning one
    (`fmt.Sscanf`), with Go's integer widths written out. */
module Fmt {
  import opened Results
  import opened Text

  predicate IsDigit(c: char)
  {
    '0' <= c <= '9'
  }

  function DigitChar(d: nat): (c: char)
    requires d < 10
    ensures IsDigit(c)
  {
    ('0' as int + d) as char
  }

  function DigitValue(c: char): nat
    requires IsDigit(c)
  {
    c as int - '0' as int
  }

  /** `%d` of a non-negative integer: its decimal digits, no sign, no leading zero. */
  function Decimal(n: nat): (s: string)
    ensures |s| > 0
    ensures forall i :: 0 <= i < |s| ==> IsDigit(s[i])
  {
    if n < 10 then [DigitChar(n)] else Decimal(n / 10) + [DigitChar(n % 10)]
  }

  /** The number written by a string of digits. */
  function DigitsValue(t: string): nat
    requires forall i :: 0 <= i < |t| ==> IsDigit(t[i])
  {
    if |t| == 0 then 0 else DigitsValue(t[..|t| - 1]) * 10 + DigitValue(t[|t| - 1])
  }

  /** Reading the digits of `Decimal(n)` gives back `n`. */
  lemma {:induction false} DecimalValue(n: nat)
    ensures DigitsValue(Decimal(n)) == n
  {
    if n >= 10 {
      DecimalValue(n / 10);
      var s := Decimal(n);
      assert s[..|s| - 1] == Decimal(n / 10);
    }
  }

  /** Length of the longest prefix made of digits: the token `%d` reads
      (base 10 leaves no room for `_` or a base prefix). */
  function DigitRunLength(s: string): (n: nat)
    ensures n <= |s|
    ensures forall i :: 0 <= i < n ==> IsDigit(s[i])
    ensures n < |s| ==> !IsDigit(s[n])
  {
    if |s| == 0 || !IsDigit(s[0]) then 0 else 1 + DigitRunLength(s[1..])
  }

  lemma {:induction false} DigitRunLengthOfDigits(d: string, rest: string)
    requires forall i :: 0 <= i < |d| ==> IsDigit(d[i])
    requires |rest| == 0 || !IsDigit(rest[0])
    ensures DigitRunLength(d + rest) == |d|
  {
    if |d| > 0 {
      assert (d + rest)[1..] == d[1..] + rest;
      DigitRunLengthOfDigits(d[1..], rest);
    } else {
      assert d + rest == rest;
    }
  }

  /** The Go integer types the scanned values are stored in. */
  datatype IntKind = Int64 | Uint32

  predicate Fits(v: int, kind: IntKind)
  {
    match kind
    case Int64 => -0x8000_0000_0000_0000 <= v < 0x8000_0000_0000_0000
    case Uint32 => 0 <= v < 0x1_0000_0000
  }

  /** Why a scan fails: the input ran out or differed from the format's
      literal text, a line feed came before the number, no digit was found,
      or the value does not fit the target type. */
  datatype ScanError = InputMismatch | UnexpectedNewline | ExpectedInteger | OutOfRange

  /** The white space `fmt` skips before a number: tab to carriage return,
      space, and the Unicode spaces of its table. */
  predicate IsSpace(c: char)
  {
    var r := c as int;
    (0x09 <= r <= 0x0d) || r == 0x20 || r == 0x85 || r == 0xa0 || r == 0x1680
    || (0x2000 <= r <= 0x200a) || r == 0x2028 || r == 0x2029 || r == 0x202f || r == 0x205f || r == 0x3000
  }

  /** Skipping white space before a number, as `fmt.Sscanf` does: a line
      feed is an error, since that scan does not treat newlines as space. */
  function SkipSpace(s: string): (r: Result<string, ScanError>)
    ensures r.Success? ==> |r.value| <= |s| && r.value == s[|s| - |r.value|..]
    ensures r.Success? ==> |r.value| == 0 || !IsSpace(r.value[0])
    ensures |s| > 0 && !IsSpace(s[0]) ==> r == Success(s)
    ensures r.Success? ==> forall i :: 0 <= i < |s| - |r.value| ==> IsSpace(s[i]) && s[i] != '\n'
    ensures |s| > 0 && s[0] == '\n' ==> r == Failure(UnexpectedNewline)
    ensures r.Failure? ==> r.error == UnexpectedNewline && exists i :: 0 <= i < |s| && s[i] == '\n'
  {
    if |s| == 0 then Success(s)
    else if s[0] == '\n' then Failure(UnexpectedNewline)
    else if IsSpace(s[0]) then SkipSpace(s[1..])
    else Success(s)
  }

  /** A literal character run of the format must appear verbatim in the input. */
  function Expect(s: string, lit: string): (r: Result<string, ScanError>)
    ensures r.Success? <==> HasPrefix(s, lit)
    ensures r.Success? ==> lit + r.value == s
  {
    if HasPrefix(s, lit) then Success(s[|lit|..]) else Failure(InputMismatch)
  }

  /** The number itself, once white space is skipped: an optional sign
      (signed kinds only) and the longest run of decimal digits, which must
      not be empty; a value outside the kind's range is an error.  Returns the value and the unread rest of the input. */
  function ScanNumber(t: string, kind: IntKind): (r: Result<(int, string), ScanError>)
    ensures r.Success? ==> Fits(r.value.0, kind)
    ensures r.Success? ==> |r.value.1| < |t| && r.value.1 == t[|t| - |r.value.1|..]
    ensures kind == Uint32 && |t| > 0 && !IsDigit(t[0]) ==> r.Failure?
  {
    var signed := kind == Int64 && |t| > 0 && (t[0] == '+' || t[0] == '-');
    var body := if signed then t[1..] else t;
    var n := DigitRunLength(body);
    if n == 0 then Failure(ExpectedInteger)
    else
      var magnitude: int := DigitsValue(body[..n]);
      var v: int := if signed && t[0] == '-' then -magnitude else magnitude;
      if Fits(v, kind) then Success((v, body[n..])) else Failure(OutOfRange)
  }

  /** `%d` into a Go integer of the given kind: white space, then a number. */
  function ScanInt(s: string, kind: IntKind): (r: Result<(int, string), ScanError>)
    ensures r.Success? ==> Fits(r.value.0, kind)
    ensures r.Success? ==> |r.value.1| < |s| && r.value.1 == s[|s| - |r.value.1|..]
    ensures |s| > 0 && !IsSpace(s[0]) ==> r == ScanNumber(s, kind)
  {
    match SkipSpace(s)
    case Failure(e) => Failure(e)
    case Success(t) => ScanNumber(t, kind)
  }

  /** Scanning what `%d` printed, when the next character cannot continue
      the number, reads the number back and leaves the rest untouched. */
  lemma ScanDecimal(n: nat, rest: string, kind: IntKind)
    requires Fits(n, kind)
    requires |rest| == 0 || !IsDigit(rest[0])
    ensures ScanInt(Decimal(n) + rest, kind) == Success((n, rest))
  {
    var d := Decimal(n);
    var s := d + rest;
    assert s[0] == d[0];
    ScanDigits(n, rest, kind);
  }

  lemma ScanDigits(n: nat, rest: string, kind: IntKind)
    requires Fits(n, kind)
    requires |rest| == 0 || !IsDigit(rest[0])
    ensures ScanNumber(Decimal(n) + rest, kind) == Success((n, rest))
  {
    var d := Decimal(n);
    var s := d + rest;
    assert s[0] == d[0];
    DigitRunLengthOfDigits(d, rest);
    assert s[..|d|] == d;
    assert s[|d|..] == rest;
    DecimalValue(n);
  }

  /** A literal run of the format followed by `%d`. */
  function ScanAfter(s: string, lit: string, kind: IntKind): (r: Result<(int, string), ScanError>)
    ensures r.Success? ==> Fits(r.value.0, kind)
    ensures r.Success? ==> |r.value.1| < |s| && r.value.1 == s[|s| - |r.value.1|..]
    ensures !HasPrefix(s, lit) ==> r == Failure(InputMismatch)
  {
    match Expect(s, lit)
    case Failure(e) => Failure(e)
    case Success(t) => ScanInt(t, kind)
  }

  /** What `"<lit>%d"` printed reads back as the number printed. */
  lemma ScanAfterDecimal(lit: string, n: nat, rest: string, kind: IntKind)
    requires Fits(n, kind)
    requires |rest| == 0 || !IsDigit(rest[0])
    ensures ScanAfter(lit + (Decimal(n) + rest), lit, kind) == Success((n, rest))
  {
    var t := Decimal(n) + rest;
    assert (lit + t)[..|lit|] == lit;
    assert (lit + t)[|lit|..] == t;
    ScanDecimal(n, rest, kind);
  }
}

=== FILE: jwt_auth.dfy ===
/** The bearer-token gate in front of the protected API routes: the
    `Authorization` header is classified, a bearer token is handed to the
    JWT parser, and on success the parsed claims are stored in the request
    context before the remaining handlers run.  Token parsing and signature
    checking are the parameter `parse`. */
module JwtAuth {
  import opened Results
  import opened Text

  const AuthHeader: string := "Authorization"
  const BearerPrefix: string := "Bearer "
  /** Context key the claims are stored under. */
  const ClaimsKey: string := "jwtClaims"
  const StatusUnauthorized: int := 401

  /** The registered claims of a token, as far as the service uses them. */
  datatype Claims = Claims(subject: string, expiresAt: int)

  /** What the JWT parser reports for a token it could read: whether the
      token is valid, and its claims. */
  datatype Parsed = Parsed(valid: bool, claims: Claims)

  /** `jwt.ParseWithClaims` with the service's key: a parse error or a result. */
  type Parser = string -> Result<Parsed, string>

  /** The two refusals, each answered with 401 and a fixed JSON message. */
  datatype AuthError = NotLoggedIn | InvalidToken

  /** A request context: its headers and the values handlers stored in it.
      Header names are keys in canonical MIME form (`Authorization`), the
      form `Header.Get` canonicalises a requested name to, so an exact
      lookup here is the same as Gin's `GetHeader`. */
  datatype Ctx = Ctx(headers: map<string, string>, keys: map<string, Claims>)

  /** Either the request was aborted with a status and message and no
      further handler runs, or the remaining handlers run on the context. */
  datatype Flow = Aborted(status: int, error: AuthError) | Continued(ctx: Ctx)

  /** The three shapes of an `Authorization` header. */
  datatype Header = Missing | NotBearer | Bearer(token: string)

  /** `c.GetHeader`: an absent header reads as empty. */
  function GetHeader(c: Ctx, name: string): string
  {
    if name in c.headers then c.headers[name] else ""
  }

  /** Classifying the header by trimming the prefix and comparing: an
      empty header is missing; a header the trim leaves unchanged lacks
      the exact, case-sensitive prefix; otherwise the token is what
      follows the prefix. */
  function ClassifyHeader(h: string): (c: Header)
    ensures c == Missing <==> h == ""
    ensures c == NotBearer <==> h != "" && !HasPrefix(h, BearerPrefix)
    ensures c.Bearer? ==> BearerPrefix + c.token == h
  {
    if h == "" then Missing
    else
      var token := TrimPrefix(h, BearerPrefix);
      if token == h then NotBearer else Bearer(token)
  }

  /** Whatever follows the prefix is the token handed on, even when empty. */
  lemma BearerToken(token: string)
    ensures ClassifyHeader(BearerPrefix + token) == Bearer(token)
  {
    assert HasPrefix(BearerPrefix + token, BearerPrefix);
    assert (BearerPrefix + token)[|BearerPrefix|..] == token;
  }

  /** The prefix comparison is case-sensitive. */
  lemma LowerCaseBearerRefused(token: string)
    ensures ClassifyHeader("bearer " + token) == NotBearer
  {
    var h := "bearer " + token;
    assert h[0] != BearerPrefix[0];
    assert h[..|BearerPrefix|] != BearerPrefix;
  }

  /** `GetClaims`: the stored claims, or nothing when none were stored. */
  function GetClaims(c: Ctx): (r: Option<Claims>)
    ensures r.None? <==> ClaimsKey !in c.keys
    ensures r.Some? ==> r.value == c.keys[ClaimsKey]
  {
    if ClaimsKey in c.keys then Some(c.keys[ClaimsKey]) else None
  }

  /** The middleware: refuse a missing header as not logged in; refuse a
      header without the prefix, a token the parser rejects and a token it
      reports invalid as an invalid token; otherwise store the claims and
      let the remaining handlers run. */
  function Authenticate(c: Ctx, parse: Parser): (r: Flow)
    ensures GetHeader(c, AuthHeader) == "" ==> r == Aborted(StatusUnauthorized, NotLoggedIn)
    ensures GetHeader(c, AuthHeader) != "" && !HasPrefix(GetHeader(c, AuthHeader), BearerPrefix)
            ==> r == Aborted(StatusUnauthorized, InvalidToken)
    ensures r.Aborted? ==> r.status == StatusUnauthorized
    ensures r.Continued? <==>
      var h := GetHeader(c, AuthHeader);
      HasPrefix(h, BearerPrefix) && parse(h[|BearerPrefix|..]).Success? && parse(h[|BearerPrefix|..]).value.valid
    ensures r.Continued? ==> r.ctx.headers == c.headers
    ensures r.Continued? ==> GetClaims(r.ctx) == Some(parse(GetHeader(c, AuthHeader)[|BearerPrefix|..]).value.claims)
    ensures r.Continued? ==> forall k :: k in c.keys && k != ClaimsKey ==> k in r.ctx.keys && r.ctx.keys[k] == c.keys[k]
    ensures r.Continued? ==> r.ctx.keys.Keys == c.keys.Keys + {ClaimsKey}
  {
    match ClassifyHeader(GetHeader(c, AuthHeader))
    case Missing => Aborted(StatusUnauthorized, NotLoggedIn)
    case NotBearer => Aborted(StatusUnauthorized, InvalidToken)
    case Bearer(token) =>
      match parse(token)
      case Failure(_) => Aborted(StatusUnauthorized, InvalidToken)
      case Success(p) =>
        if !p.valid then Aborted(StatusUnauthorized, InvalidToken)
        else Continued(c.(keys := c.keys[ClaimsKey := p.claims]))
  }

  /** A request carrying `Bearer <token>` goes on exactly when the parser
      accepts that very token as valid, and the handlers after it then find
      that token's claims. */
  lemma BearerRequest(c: Ctx, token: string, parse: Parser)
    requires GetHeader(c, AuthHeader) == BearerPrefix + token
    ensures Authenticate(c, parse).Continued? <==> parse(token).Success? && parse(token).value.valid
    ensures Authenticate(c, parse).Continued? ==> GetClaims(Authenticate(c, parse).ctx) == Some(parse(token).value.claims)
  {
    BearerToken(token);
  }
}

=== FILE: ordering.dfy ===
/** Byte-wise lexicographic order on strings and `sort.Strings`.
    Go compares strings byte by byte; for UTF-8 that is the order of code
    points, which is the order of `char` values used here. */
module Ordering {

  /** `a < b` for Go strings. */
  predicate Less(a: string, b: string)
    decreases |a|
  {
    if |a| == 0 then |b| > 0
    else if |b| == 0 then false
    else if a[0] != b[0] then a[0] < b[0]
    else Less(a[1..], b[1..])
  }

  lemma {:induction false} LessIrreflexive(a: string)
    ensures !Less(a, a)
  {
    if |a| > 0 {
      LessIrreflexive(a[1..]);
    }
  }

  lemma {:induction false} LessAsymmetric(a: string, b: string)
    ensures Less(a, b) ==> !Less(b, a)
  {
    if |a| > 0 && |b| > 0 && a[0] == b[0] {
      LessAsymmetric(a[1..], b[1..]);
    }
  }

  lemma {:induction false} LessTransitive(a: string, b: string, c: string)
    requires Less(a, b) && Less(b, c)
    ensures Less(a, c)
  {
    if |a| > 0 && a[0] == b[0] && b[0] == c[0] {
      LessTransitive(a[1..], b[1..], c[1..]);
    }
  }

  lemma {:induction false} LessTotal(a: string, b: string)
    requires a != b
    ensures Less(a, b) || Less(b, a)
  {
    if |a| > 0 && |b| > 0 && a[0] == b[0] {
      assert a == [a[0]] + a[1..];
      assert b == [b[0]] + b[1..];
      LessTotal(a[1..], b[1..]);
    }
  }

  /** Strictly ascending, hence free of duplicates. */
  predicate Sorted(s: seq<string>)
  {
    forall i, j :: 0 <= i < j < |s| ==> Less(s[i], s[j])
  }

  predicate Distinct(s: seq<string>)
  {
    forall i, j :: 0 <= i < j < |s| ==> s[i] != s[j]
  }

  lemma SortedIsDistinct(s: seq<string>)
    requires Sorted(s)
    ensures Distinct(s)
  {
    forall i, j | 0 <= i < j < |s| ensures s[i] != s[j] {
      LessIrreflexive(s[i]);
    }
  }

  /** Places `x` in front of the first element greater than it. */
  function InsertSorted(x: string, s: seq<string>): (r: seq<string>)
    ensures multiset(r) == multiset(s) + multiset{x}
    ensures Sorted(s) && x !in s ==> Sorted(r)
  {
    if |s| == 0 then [x]
    else if Less(x, s[0]) then
      assert Sorted(s) ==> Sorted([x] + s) by {
        if Sorted(s) {
          forall j | 0 < j < |[x] + s| ensures Less(x, ([x] + s)[j]) {
            if j > 1 { LessTransitive(x, s[0], s[j - 1]); }
          }
        }
      }
      [x] + s
    else
      var tail := InsertSorted(x, s[1..]);
      assert s == [s[0]] + s[1..];
      assert Sorted(s) && x !in s ==> Sorted([s[0]] + tail) by {
        if Sorted(s) && x !in s {
          LessTotal(x, s[0]);
          forall j | 0 < j < |[s[0]] + tail| ensures Less(s[0], ([s[0]] + tail)[j]) {
            var y := tail[j - 1];
            assert y in multiset(tail);
            assert y in multiset(s[1..]) + multiset{x};
          }
        }
      }
      [s[0]] + tail
  }

  /** `sort.Strings`, modelled as insertion sort.  On distinct keys any
      correct sort returns this same sequence (see `SortedUnique`), so the
      choice of algorithm is not observable. */
  function Sort(xs: seq<string>): (r: seq<string>)
    ensures multiset(r) == multiset(xs)
    ensures Distinct(xs) ==> Sorted(r)
  {
    if |xs| == 0 then []
    else
      var tail := Sort(xs[1..]);
      assert xs == [xs[0]] + xs[1..];
      assert Distinct(xs) ==> xs[0] !in multiset(xs[1..]);
      InsertSorted(xs[0], tail)
  }

  /** Two ascending sequences over the same elements are the same sequence. */
  lemma {:induction false} SortedUnique(a: seq<string>, b: seq<string>)
    requires Sorted(a) && Sorted(b)
    requires forall k :: k in a <==> k in b
    ensures a == b
  {
    if |a| > 0 { assert a[0] in b; }
    if |b| > 0 { assert b[0] in a; }
    if |a| > 0 && |b| > 0 {
      // a[0] and b[0] are both the least element of the common set
      assert b[0] in a;
      assert a[0] in b;
      if a[0] != b[0] {
        var i :| 0 < i < |a| && a[i] == b[0];
        var j :| 0 < j < |b| && b[j] == a[0];
        LessAsymmetric(a[0], b[0]);
      }
      assert a[0] == b[0];
      forall k ensures k in a[1..] ==> k in b[1..] {
        if k in a[1..] {
          var i :| 1 <= i < |a| && a[i] == k;
          LessIrreflexive(a[0]);
          assert k in a;
          assert k in b;
          var j :| 0 <= j < |b| && b[j] == k;
          assert j != 0;
          assert b[1..][j - 1] == k;
        }
      }
      forall k ensures k in b[1..] ==> k in a[1..] {
        if k in b[1..] {
          var i :| 1 <= i < |b| && b[i] == k;
          LessIrreflexive(b[0]);
          assert k in b;
          assert k in a;
          var j :| 0 <= j < |a| && a[j] == k;
          assert j != 0;
          assert a[1..][j - 1] == k;
        }
      }
      SortedUnique(a[1..], b[1..]);
      assert a == [a[0]] + a[1..];
      assert b == [b[0]] + b[1..];
    }
  }

  /** Sorting two orderings of the same distinct keys gives the same result:
      the input order is irrelevant. */
  lemma SortIgnoresOrder(xs: seq<string>, ys: seq<string>)
    requires Distinct(xs) && Distinct(ys)
    requires forall k :: k in xs <==> k in ys
    ensures Sort(xs) == Sort(ys)
  {
    var a, b := Sort(xs), Sort(ys);
    forall k ensures k in a <==> k in b {
      assert k in a <==> k in multiset(a);
      assert k in b <==> k in multiset(b);
      assert k in xs <==> k in multiset(xs);
      assert k in ys <==> k in multiset(ys);
    }
    SortedUnique(a, b);
  }
}

=== FILE: results.dfy ===
/** Failure-carrying datatypes shared by every module of the model.
    Go's `(value, error)` pairs become `Result`, nil-able pointers become `Option`. */
module Results {

  datatype Option<+T> = None | Some(value: T)

  datatype Result<+T, +E> = Success(value: T) | Failure(error: E)
}

=== FILE: router_guard.dfy ===
/** The navigation guard of the web client: the login and registration
    pages are always reachable, every other page only with a non-empty
    `token` cookie, and a refused navigation is sent to the login page. */
module RouterGuard {
  import opened Results

  const LoginRoute: string := "Login"
  const RegisterRoute: string := "Register"

  /** What the guard passes to `next`: nothing, or a redirect to a named route. */
  datatype Decision = Proceed | Redirect(route: string)

  /** Routes reachable without a session. */
  predicate IsPublic(name: Option<string>)
  {
    name == Some(LoginRoute) || name == Some(RegisterRoute)
  }

  /** The guard for a navigation to the route named `to` (a route may have
      no name), given the value of the `token` cookie (empty when unset). */
  function Guard(to: Option<string>, token: string): (d: Decision)
    ensures d == Proceed <==> IsPublic(to) || token != ""
    ensures d != Proceed ==> d == Redirect(LoginRoute)
  {
    if to == Some(LoginRoute) || to == Some(RegisterRoute) then Proceed
    else if token != "" then Proceed
    else Redirect(LoginRoute)
  }

  /** A redirect always leads to a route the guard lets through, so the
      guard never redirects in a loop. */
  lemma NoRedirectLoop(to: Option<string>, token: string)
    ensures Guard(to, token).Redirect? ==> Guard(Some(Guard(to, token).route), token) == Proceed
  {
  }
}

=== FILE: sql_builder.dfy ===
/** The statement builders of the generic MySQL access layer
    (backed/utils/database.go): CREATE TABLE from column definitions, and
    INSERT / UPDATE / DELETE / SELECT from field maps.  Every builder is a
    pure function from its inputs to SQL text plus the ordered list of
    values bound to its `?` placeholders.

    Go ranges over a map in an unspecified order.  That order is an explicit
    parameter here (`order`, any enumeration of the map's keys); the builders
    sort it, and the `...IgnoresKeyOrder` lemmas show the order never reaches
    the output. */
module SqlBuilder {
  import opened Results
  import opened Text
  import opened Ordering

  /** A value bound to a placeholder.  Go passes `interface{}`; the model
      uses a closed set of variants (times are instants of an abstract clock). */
  datatype Value = IntVal(i: int) | TextVal(s: string) | BoolVal(b: bool) | TimeVal(t: int) | NullVal

  /** A Go `map[string]interface{}` used as payload or equality filter. */
  type FieldMap = map<string, Value>

  /** SQL text with the values for its placeholders, in placeholder order. */
  datatype Stmt = Stmt(sql: string, args: seq<Value>)

  /** Misuse detected before any statement is built or sent. */
  datatype UsageError = NoColumns | NoInsertData | NoUpdateData | UpdateWithoutWhere | DeleteWithoutWhere

  /** Go's `ColumnDefinition`.  An empty `default` means "no default". */
  datatype ColumnDefinition = ColumnDefinition(
    name: string, sqlType: string, nullable: bool, primary: bool, unique: bool, default: string)

  const PrimaryKeySuffix := " AUTO_INCREMENT PRIMARY KEY"
  const NotNullSuffix := " NOT NULL"
  const UniqueSuffix := " UNIQUE"
  const DefaultPrefix := " DEFAULT "

  // ---------------------------------------------------------------- columns

  /** The text appended after `name type` in a column definition. */
  function Suffix(c: ColumnDefinition): string
  {
    if c.primary then PrimaryKeySuffix else PlainSuffix(!c.nullable, c.unique, c.default)
  }

  /** The suffix of a non-primary column: NOT NULL, UNIQUE, DEFAULT, each optional, in this order. */
  function PlainSuffix(notNull: bool, unique: bool, default: string): string
  {
    (if notNull then NotNullSuffix else "")
    + (if unique then UniqueSuffix else "")
    + (if default != "" then DefaultPrefix + default else "")
  }

  /** What a column definition declares beyond its name and type: a primary
      column is auto-increment primary key and nothing else; any other column
      carries NOT NULL, UNIQUE and DEFAULT independently. */
  datatype Constraints = AutoPrimaryKey | Plain(notNull: bool, unique: bool, default: string)

  function ConstraintsOf(c: ColumnDefinition): Constraints
  {
    if c.primary then AutoPrimaryKey else Plain(!c.nullable, c.unique, c.default)
  }

  /** Reads a suffix back: the exact primary-key suffix, or optional NOT NULL,
      then optional UNIQUE, then an optional DEFAULT with a non-empty
      expression, in that order and nothing else. */
  function ParseSuffix(s: string): Option<Constraints>
  {
    if s == PrimaryKeySuffix then Some(AutoPrimaryKey)
    else
      var notNull := HasPrefix(s, NotNullSuffix);
      var s1 := TrimPrefix(s, NotNullSuffix);
      var unique := HasPrefix(s1, UniqueSuffix);
      var s2 := TrimPrefix(s1, UniqueSuffix);
      if s2 == "" then Some(Plain(notNull, unique, ""))
      else if HasPrefix(s2, DefaultPrefix) && |s2| > |DefaultPrefix| then
        Some(Plain(notNull, unique, s2[|DefaultPrefix|..]))
      else None
  }

  lemma DefaultStage(d: string)
    ensures var s := PlainSuffix(false, false, d);
      && (s == "" <==> d == "")
      && (d != "" ==> HasPrefix(s, DefaultPrefix) && s[|DefaultPrefix|..] == d)
  {
    if d != "" {
      PrefixOfConcat(DefaultPrefix, d);
    }
  }

  lemma UniqueStage(unique: bool, d: string)
    ensures var s := PlainSuffix(false, unique, d);
      && HasPrefix(s, UniqueSuffix) == unique
      && TrimPrefix(s, UniqueSuffix) == PlainSuffix(false, false, d)
  {
    var s := PlainSuffix(false, unique, d);
    if unique {
      PrefixOfConcat(UniqueSuffix, PlainSuffix(false, false, d));
    } else if d != "" {
      NotPrefixAt(s, UniqueSuffix, 1);
    }
  }

  lemma NotNullStage(notNull: bool, unique: bool, d: string)
    ensures var s := PlainSuffix(notNull, unique, d);
      && HasPrefix(s, NotNullSuffix) == notNull
      && TrimPrefix(s, NotNullSuffix) == PlainSuffix(false, unique, d)
  {
    var s := PlainSuffix(notNull, unique, d);
    if notNull {
      PrefixOfConcat(NotNullSuffix, PlainSuffix(false, unique, d));
    } else if unique || d != "" {
      NotPrefixAt(s, NotNullSuffix, 1);
    }
  }

  /** The suffix records the column's constraints faithfully and in the fixed
      order: a primary column gets exactly the auto-increment primary-key
      suffix, and otherwise NOT NULL appears iff the column is not nullable,
      UNIQUE iff it is flagged, DEFAULT d iff d is non-empty. */
  lemma SuffixRoundTrip(c: ColumnDefinition)
    ensures ParseSuffix(Suffix(c)) == Some(ConstraintsOf(c))
  {
    if !c.primary {
      var s := PlainSuffix(!c.nullable, c.unique, c.default);
      if s != "" {
        NotPrefixAt(s, PrimaryKeySuffix, 1);
      }
      NotNullStage(!c.nullable, c.unique, c.default);
      UniqueStage(c.unique, c.default);
      DefaultStage(c.default);
    }
  }

  /** One column definition: `name type` followed by its suffix. */
  function ColumnClause(c: ColumnDefinition): string
  {
    c.name + " " + c.sqlType + Suffix(c)
  }

  /** The column definitions of a schema, one per column, in the caller's order. */
  function ColumnClauses(cols: seq<ColumnDefinition>): (defs: seq<string>)
    ensures |defs| == |cols|
    ensures forall i :: 0 <= i < |cols| ==> defs[i] == ColumnClause(cols[i])
  {
    seq(|cols|, i requires 0 <= i < |cols| => ColumnClause(cols[i]))
  }

  /** `CREATE TABLE IF NOT EXISTS` over the definitions joined by `,\n  `;
      an empty schema is refused before anything is built. */
  function CreateTableStatement(name: string, cols: seq<ColumnDefinition>): (r: Result<Stmt, UsageError>)
    ensures r.Failure? <==> |cols| == 0
    ensures r.Failure? ==> r.error == NoColumns
    ensures r.Success? ==> r.value.args == []
    ensures r.Success? ==>
      r.value.sql == "CREATE TABLE IF NOT EXISTS " + name + " (\n  " + Join(ColumnClauses(cols), ",\n  ") + "\n)"
  {
    if |cols| == 0 then Failure(NoColumns)
    else Success(Stmt("CREATE TABLE IF NOT EXISTS " + name + " (\n  " + Join(ColumnClauses(cols), ",\n  ") + "\n)", []))
  }

  // ------------------------------------------------------------ field maps

  /** `order` visits every key of `m` exactly once: one possible result of
      Go's `for k := range m`. */
  ghost predicate Enumerates(order: seq<string>, m: FieldMap)
  {
    Distinct(order) && forall k :: k in order <==> k in m
  }

  lemma {:induction false} DistinctSetSize(order: seq<string>, keys: set<string>)
    requires Distinct(order)
    requires forall k :: k in order <==> k in keys
    ensures |order| == |keys|
  {
    if |order| > 0 {
      var rest := keys - {order[0]};
      forall k ensures k in order[1..] <==> k in rest {
        if k in order[1..] {
          var i :| 1 <= i < |order| && order[i] == k;
        }
        if k in rest {
          assert k in order;
          var i :| 0 <= i < |order| && order[i] == k;
          assert order[1..][i - 1] == k;
        }
      }
      DistinctSetSize(order[1..], rest);
    }
  }

  /** The map's keys in ascending order, as `sort.Strings(keys)` leaves them. */
  function SortedKeys(m: FieldMap, order: seq<string>): (keys: seq<string>)
    requires Enumerates(order, m)
    ensures Sorted(keys)
    ensures Enumerates(keys, m)
    ensures |keys| == |m|
  {
    var keys := Sort(order);
    SortedIsDistinct(keys);
    forall k ensures k in keys <==> k in order {
      assert k in keys <==> k in multiset(keys);
      assert k in order <==> k in multiset(order);
    }
    DistinctSetSize(keys, m.Keys);
    keys
  }

  /** Whatever order Go's range produced, the sorted keys are the same. */
  lemma SortedKeysIgnoreOrder(m: FieldMap, o1: seq<string>, o2: seq<string>)
    requires Enumerates(o1, m) && Enumerates(o2, m)
    ensures SortedKeys(m, o1) == SortedKeys(m, o2)
  {
    SortIgnoresOrder(o1, o2);
  }

  /** `values = append(values, m[k])` for each key in turn. */
  function ValuesOf(keys: seq<string>, m: FieldMap): (vals: seq<Value>)
    requires forall i :: 0 <= i < |keys| ==> keys[i] in m
    ensures |vals| == |keys|
    ensures forall i :: 0 <= i < |keys| ==> vals[i] == m[keys[i]]
  {
    if |keys| == 0 then [] else [m[keys[0]]] + ValuesOf(keys[1..], m)
  }

  /** The field map that binding `vals` to the columns `keys` describes. */
  function Bind(keys: seq<string>, vals: seq<Value>): FieldMap
    requires |keys| == |vals|
  {
    if |keys| == 0 then map[] else Bind(keys[1..], vals[1..])[keys[0] := vals[0]]
  }

  /** Binding distinct keys: the bound map has exactly those keys, each
      mapped to the value in the same position. */
  lemma {:induction false} BindAt(keys: seq<string>, vals: seq<Value>)
    requires |keys| == |vals| && Distinct(keys)
    ensures forall k :: k in Bind(keys, vals) <==> k in keys
    ensures forall i :: 0 <= i < |keys| ==> Bind(keys, vals)[keys[i]] == vals[i]
  {
    if |keys| > 0 {
      BindAt(keys[1..], vals[1..]);
      forall i | 1 <= i < |keys| ensures Bind(keys, vals)[keys[i]] == vals[i] {
        assert keys[1..][i - 1] == keys[i];
        assert keys[i] != keys[0];
      }
    }
  }

  /** Binding the collected values to the enumerated keys rebuilds the map:
      a statement's column list and argument list describe exactly the data. */
  lemma BindValuesOf(keys: seq<string>, m: FieldMap)
    requires Enumerates(keys, m)
    ensures Bind(keys, ValuesOf(keys, m)) == m
  {
    var vals := ValuesOf(keys, m);
    var b := Bind(keys, vals);
    BindAt(keys, vals);
    forall k | k in m ensures k in b && b[k] == m[k] {
      var i :| 0 <= i < |keys| && keys[i] == k;
    }
  }

  /** `k = ?` for each key. */
  function Conditions(keys: seq<string>): (conds: seq<string>)
    ensures |conds| == |keys|
    ensures forall i :: 0 <= i < |keys| ==> conds[i] == keys[i] + " = ?"
  {
    if |keys| == 0 then [] else [keys[0] + " = ?"] + Conditions(keys[1..])
  }

  /** `n` copies of `?`. */
  function Placeholders(n: nat): (ps: seq<string>)
    ensures |ps| == n
    ensures forall i :: 0 <= i < n ==> ps[i] == "?"
  {
    if n == 0 then [] else ["?"] + Placeholders(n - 1)
  }

  // ------------------------------------------------------------ statements

  /** `INSERT INTO t (k1, ..., kn) VALUES (?, ..., ?)` over the sorted keys,
      binding each key's value in the same position; an empty map is refused. */
  function InsertStatement(table: string, data: FieldMap, order: seq<string>): (r: Result<Stmt, UsageError>)
    requires Enumerates(order, data)
    ensures r.Failure? <==> |data| == 0
    ensures r.Failure? ==> r.error == NoInsertData
    ensures r.Success? ==>
      var cols := SortedKeys(data, order);
      && r.value.sql == "INSERT INTO " + table + " (" + Join(cols, ", ") + ") VALUES ("
                        + Join(Placeholders(|cols|), ", ") + ")"
      && |r.value.args| == |cols| == |data|
      && Bind(cols, r.value.args) == data
  {
    if |data| == 0 then Failure(NoInsertData)
    else
      var cols := SortedKeys(data, order);
      BindValuesOf(cols, data);
      Success(Stmt("INSERT INTO " + table + " (" + Join(cols, ", ") + ") VALUES ("
                   + Join(Placeholders(|cols|), ", ") + ")",
                   ValuesOf(cols, data)))
  }

  /** `k1 = ? AND ... AND kn = ?` over the sorted keys. */
  function WherePredicate(keys: seq<string>): string
  {
    Join(Conditions(keys), " AND ")
  }

  /** `DELETE FROM t WHERE ...` with the filter's values in sorted-key order;
      an empty filter is refused, so no unconditional delete can be built. */
  function DeleteStatement(table: string, where: FieldMap, order: seq<string>): (r: Result<Stmt, UsageError>)
    requires Enumerates(order, where)
    ensures r.Failure? <==> |where| == 0
    ensures r.Failure? ==> r.error == DeleteWithoutWhere
    ensures r.Success? ==>
      var keys := SortedKeys(where, order);
      && r.value.sql == "DELETE FROM " + table + " WHERE " + WherePredicate(keys)
      && |r.value.args| == |keys|
      && Bind(keys, r.value.args) == where
  {
    if |where| == 0 then Failure(DeleteWithoutWhere)
    else
      var keys := SortedKeys(where, order);
      BindValuesOf(keys, where);
      Success(Stmt("DELETE FROM " + table + " WHERE " + WherePredicate(keys), ValuesOf(keys, where)))
  }

  /** `UPDATE t SET a = ?, ... WHERE x = ? AND ...`: the data values in
      sorted-key order followed by the filter values in sorted-key order.
      An empty payload is refused first, then an empty filter. */
  function UpdateStatement(table: string, data: FieldMap, dataOrder: seq<string>,
                           where: FieldMap, whereOrder: seq<string>): (r: Result<Stmt, UsageError>)
    requires Enumerates(dataOrder, data) && Enumerates(whereOrder, where)
    ensures |data| == 0 ==> r == Failure(NoUpdateData)
    ensures |data| > 0 && |where| == 0 ==> r == Failure(UpdateWithoutWhere)
    ensures r.Success? <==> |data| > 0 && |where| > 0
    ensures r.Success? ==>
      var dk := SortedKeys(data, dataOrder);
      var wk := SortedKeys(where, whereOrder);
      && r.value.sql == "UPDATE " + table + " SET " + Join(Conditions(dk), ", ") + " WHERE " + WherePredicate(wk)
      && |r.value.args| == |data| + |where|
      && Bind(dk, r.value.args[..|data|]) == data
      && Bind(wk, r.value.args[|data|..]) == where
  {
    if |data| == 0 then Failure(NoUpdateData)
    else if |where| == 0 then Failure(UpdateWithoutWhere)
    else
      var dk := SortedKeys(data, dataOrder);
      var wk := SortedKeys(where, whereOrder);
      var args := ValuesOf(dk, data) + ValuesOf(wk, where);
      BindValuesOf(dk, data);
      BindValuesOf(wk, where);
      assert args[..|data|] == ValuesOf(dk, data);
      assert args[|data|..] == ValuesOf(wk, where);
      Success(Stmt("UPDATE " + table + " SET " + Join(Conditions(dk), ", ") + " WHERE " + WherePredicate(wk), args))
  }

  /** The column list of a SELECT: `*` when none are named. */
  function SelectList(columns: seq<string>): string
  {
    if |columns| == 0 then "*" else Join(columns, ", ")
  }

  /** `SELECT cols FROM t`, plus ` WHERE ...` with the filter's values only
      when the filter is non-empty.  Never refused. */
  function SelectStatement(table: string, columns: seq<string>, where: FieldMap, order: seq<string>): (r: Stmt)
    requires Enumerates(order, where)
    ensures |where| == 0 ==> r == Stmt("SELECT " + SelectList(columns) + " FROM " + table, [])
    ensures |where| > 0 ==>
      var keys := SortedKeys(where, order);
      && r.sql == "SELECT " + SelectList(columns) + " FROM " + table + " WHERE " + WherePredicate(keys)
      && |r.args| == |keys|
      && Bind(keys, r.args) == where
  {
    var base := "SELECT " + SelectList(columns) + " FROM " + table;
    if |where| == 0 then Stmt(base, [])
    else
      var keys := SortedKeys(where, order);
      BindValuesOf(keys, where);
      Stmt(base + " WHERE " + WherePredicate(keys), ValuesOf(keys, where))
  }

  // ------------------------------------------------- order independence

  lemma InsertIgnoresKeyOrder(table: string, data: FieldMap, o1: seq<string>, o2: seq<string>)
    requires Enumerates(o1, data) && Enumerates(o2, data)
    ensures InsertStatement(table, data, o1) == InsertStatement(table, data, o2)
  {
    SortedKeysIgnoreOrder(data, o1, o2);
  }

  lemma UpdateIgnoresKeyOrder(table: string, data: FieldMap, d1: seq<string>, d2: seq<string>,
                              where: FieldMap, w1: seq<string>, w2: seq<string>)
    requires Enumerates(d1, data) && Enumerates(d2, data)
    requires Enumerates(w1, where) && Enumerates(w2, where)
    ensures UpdateStatement(table, data, d1, where, w1) == UpdateStatement(table, data, d2, where, w2)
  {
    SortedKeysIgnoreOrder(data, d1, d2);
    SortedKeysIgnoreOrder(where, w1, w2);
  }

  lemma DeleteIgnoresKeyOrder(table: string, where: FieldMap, o1: seq<string>, o2: seq<string>)
    requires Enumerates(o1, where) && Enumerates(o2, where)
    ensures DeleteStatement(table, where, o1) == DeleteStatement(table, where, o2)
  {
    SortedKeysIgnoreOrder(where, o1, o2);
  }

  lemma SelectIgnoresKeyOrder(table: string, columns: seq<string>, where: FieldMap, o1: seq<string>, o2: seq<string>)
    requires Enumerates(o1, where) && Enumerates(o2, where)
    ensures SelectStatement(table, columns, where, o1) == SelectStatement(table, columns, where, o2)
  {
    SortedKeysIgnoreOrder(where, o1, o2);
  }

  // ------------------------------------------------- placeholder counting

  /** No `?` inside an identifier (table or column name). */
  predicate NoMark(s: string)
  {
    '?' !in s
  }

  predicate NoMarkInKeys(m: FieldMap)
  {
    forall k :: k in m ==> NoMark(k)
  }

  lemma {:induction false} ConditionsCount(keys: seq<string>)
    requires forall i :: 0 <= i < |keys| ==> NoMark(keys[i])
    ensures CountInAll(Conditions(keys), '?') == |keys|
  {
    if |keys| > 0 {
      ConditionsCount(keys[1..]);
      CountCharAbsent(keys[0], '?');
      CountCharConcat(keys[0], " = ?", '?');
      assert Conditions(keys)[1..] == Conditions(keys[1..]);
    }
  }

  lemma {:induction false} PlaceholdersCount(n: nat)
    ensures CountInAll(Placeholders(n), '?') == n
  {
    if n > 0 {
      PlaceholdersCount(n - 1);
      assert Placeholders(n)[1..] == Placeholders(n - 1);
    }
  }

  lemma {:induction false} KeysCount(keys: seq<string>)
    requires forall i :: 0 <= i < |keys| ==> NoMark(keys[i])
    ensures CountInAll(keys, '?') == 0
  {
    if |keys| > 0 {
      KeysCount(keys[1..]);
      CountCharAbsent(keys[0], '?');
    }
  }

  lemma WherePredicateCount(keys: seq<string>)
    requires |keys| > 0
    requires forall i :: 0 <= i < |keys| ==> NoMark(keys[i])
    ensures CountChar(WherePredicate(keys), '?') == |keys|
  {
    ConditionsCount(keys);
    CountCharJoin(Conditions(keys), " AND ", '?');
  }

  /** With identifiers free of `?`, an INSERT has exactly one placeholder per
      bound value. */
  lemma InsertPlaceholders(table: string, data: FieldMap, order: seq<string>)
    requires Enumerates(order, data) && |data| > 0
    requires NoMark(table) && NoMarkInKeys(data)
    ensures var st := InsertStatement(table, data, order).value;
      CountChar(st.sql, '?') == |st.args|
  {
    var cols := SortedKeys(data, order);
    var j1, j2 := Join(cols, ", "), Join(Placeholders(|cols|), ", ");
    JoinedKeysCount(cols);
    JoinedPlaceholdersCount(|cols|);
    InsertTextCount(table, j1, j2);
    var st := InsertStatement(table, data, order).value;
    assert st.sql == "INSERT INTO " + table + " (" + j1 + ") VALUES (" + j2 + ")";
  }

  lemma JoinedKeysCount(keys: seq<string>)
    requires forall i :: 0 <= i < |keys| ==> NoMark(keys[i])
    ensures CountChar(Join(keys, ", "), '?') == 0
  {
    if |keys| > 0 {
      KeysCount(keys);
      CountCharJoin(keys, ", ", '?');
    }
  }

  lemma JoinedPlaceholdersCount(n: nat)
    ensures CountChar(Join(Placeholders(n), ", "), '?') == n
  {
    if n > 0 {
      PlaceholdersCount(n);
      CountCharJoin(Placeholders(n), ", ", '?');
    }
  }

  lemma InsertTextCount(table: string, j1: string, j2: string)
    requires NoMark(table)
    ensures CountChar("INSERT INTO " + table + " (" + j1 + ") VALUES (" + j2 + ")", '?')
      == CountChar(j1, '?') + CountChar(j2, '?')
  {
    assert NoMark("INSERT INTO ") && NoMark(" (") && NoMark(") VALUES (") && NoMark(")");
    CountAroundFixed("INSERT INTO ", table, " (", j1, ") VALUES (", j2, ")");
  }

  /** Occurrences of `?` in seven concatenated pieces of which all but the
      fourth and sixth are free of it. */
  lemma CountAroundFixed(p0: string, p1: string, p2: string, p3: string, p4: string, p5: string, p6: string)
    requires NoMark(p0) && NoMark(p1) && NoMark(p2) && NoMark(p4) && NoMark(p6)
    ensures CountChar(p0 + p1 + p2 + p3 + p4 + p5 + p6, '?') == CountChar(p3, '?') + CountChar(p5, '?')
  {
    CountCharAbsent(p0, '?');
    CountCharAbsent(p1, '?');
    CountCharAbsent(p2, '?');
    CountCharAbsent(p4, '?');
    CountCharAbsent(p6, '?');
    CountCharConcat(p0, p1, '?');
    CountCharConcat(p0 + p1, p2, '?');
    CountCharConcat(p0 + p1 + p2, p3, '?');
    CountCharConcat(p0 + p1 + p2 + p3, p4, '?');
    CountCharConcat(p0 + p1 + p2 + p3 + p4, p5, '?');
    CountCharConcat(p0 + p1 + p2 + p3 + p4 + p5, p6, '?');
  }

  /** With identifiers free of `?`, an UPDATE has exactly one placeholder per
      bound value: one per payload field plus one per filter field. */
  lemma UpdatePlaceholders(table: string, data: FieldMap, dataOrder: seq<string>,
                           where: FieldMap, whereOrder: seq<string>)
    requires Enumerates(dataOrder, data) && Enumerates(whereOrder, where)
    requires |data| > 0 && |where| > 0
    requires NoMark(table) && NoMarkInKeys(data) && NoMarkInKeys(where)
    ensures var st := UpdateStatement(table, data, dataOrder, where, whereOrder).value;
      CountChar(st.sql, '?') == |st.args|
  {
    var dk := SortedKeys(data, dataOrder);
    var wk := SortedKeys(where, whereOrder);
    var setList, wherePred := Join(Conditions(dk), ", "), WherePredicate(wk);
    ConditionsCount(dk);
    CountCharJoin(Conditions(dk), ", ", '?');
    WherePredicateCount(wk);
    UpdateTextCount(table, setList, wherePred);
    var st := UpdateStatement(table, data, dataOrder, where, whereOrder).value;
    assert st.sql == "UPDATE " + table + " SET " + setList + " WHERE " + wherePred;
  }

  lemma UpdateTextCount(table: string, setList: string, wherePred: string)
    requires NoMark(table)
    ensures CountChar("UPDATE " + table + " SET " + setList + " WHERE " + wherePred, '?')
      == CountChar(setList, '?') + CountChar(wherePred, '?')
  {
    assert NoMark("UPDATE ") && NoMark(" SET ") && NoMark(" WHERE ");
    CountAroundFixed("UPDATE ", table, " SET ", setList, " WHERE ", wherePred, "");
    assert "UPDATE " + table + " SET " + setList + " WHERE " + wherePred + ""
        == "UPDATE " + table + " SET " + setList + " WHERE " + wherePred;
  }

  /** With identifiers free of `?`, a DELETE has one placeholder per filter value. */
  lemma DeletePlaceholders(table: string, where: FieldMap, order: seq<string>)
    requires Enumerates(order, where) && |where| > 0
    requires NoMark(table) && NoMarkInKeys(where)
    ensures var st := DeleteStatement(table, where, order).value;
      CountChar(st.sql, '?') == |st.args|
  {
    var keys := SortedKeys(where, order);
    var wherePred := WherePredicate(keys);
    WherePredicateCount(keys);
    DeleteTextCount(table, wherePred);
    var st := DeleteStatement(table, where, order).value;
    assert st.sql == "DELETE FROM " + table + " WHERE " + wherePred;
  }

  lemma DeleteTextCount(table: string, wherePred: string)
    requires NoMark(table)
    ensures CountChar("DELETE FROM " + table + " WHERE " + wherePred, '?') == CountChar(wherePred, '?')
  {
    assert NoMark("DELETE FROM ") && NoMark(" WHERE ") && NoMark("");
    CountAroundFixed("DELETE FROM ", table, " WHERE ", "", "", wherePred, "");
    assert "DELETE FROM " + table + " WHERE " + "" + "" + wherePred + ""
        == "DELETE FROM " + table + " WHERE " + wherePred;
  }
}

=== FILE: text.dfy ===
/** The handful of Go `strings` helpers the core relies on (Join, Split,
    Contains, HasPrefix, TrimPrefix), written over `string` = `seq<char>`. */
module Text {

  /** `strings.Join`: the parts with `sep` between consecutive parts. */
  function Join(parts: seq<string>, sep: string): string
  {
    if |parts| == 0 then ""
    else if |parts| == 1 then parts[0]
    else parts[0] + sep + Join(parts[1..], sep)
  }

  /** Number of occurrences of the character `c` in `s`. */
  function CountChar(s: string, c: char): nat
  {
    if |s| == 0 then 0
    else (if s[0] == c then 1 else 0) + CountChar(s[1..], c)
  }

  lemma {:induction false} CountCharConcat(a: string, b: string, c: char)
    ensures CountChar(a + b, c) == CountChar(a, c) + CountChar(b, c)
  {
    if |a| > 0 {
      assert (a + b)[1..] == a[1..] + b;
      CountCharConcat(a[1..], b, c);
    } else {
      assert a + b == b;
    }
  }

  lemma {:induction false} CountCharAbsent(s: string, c: char)
    requires c !in s
    ensures CountChar(s, c) == 0
  {
    if |s| > 0 {
      assert s[0] != c;
      CountCharAbsent(s[1..], c);
    }
  }

  /** Total number of `c` in a list of parts. */
  function CountInAll(parts: seq<string>, c: char): nat
  {
    if |parts| == 0 then 0 else CountChar(parts[0], c) + CountInAll(parts[1..], c)
  }

  /** Joining with a separator free of `c` adds no occurrence of `c`. */
  lemma {:induction false} CountCharJoin(parts: seq<string>, sep: string, c: char)
    requires c !in sep
    ensures CountChar(Join(parts, sep), c) == CountInAll(parts, c)
  {
    if |parts| > 1 {
      CountCharJoin(parts[1..], sep, c);
      CountCharAbsent(sep, c);
      CountCharConcat(parts[0], sep, c);
      CountCharConcat(parts[0] + sep, Join(parts[1..], sep), c);
    }
  }

  /** `strings.Split(s, string(c))`: the maximal `c`-free pieces of `s`, in order.
      The empty string splits into one empty piece, as in Go. */
  function Split(s: string, c: char): (parts: seq<string>)
    ensures |parts| == CountChar(s, c) + 1
    ensures forall i :: 0 <= i < |parts| ==> c !in parts[i]
  {
    if |s| == 0 then [""]
    else
      var rest := Split(s[1..], c);
      if s[0] == c then [""] + rest
      else [[s[0]] + rest[0]] + rest[1..]
  }

  /** Splitting then joining with the same separator gives back the input. */
  lemma {:induction false} JoinSplit(s: string, c: char)
    ensures Join(Split(s, c), [c]) == s
  {
    if |s| > 0 {
      var rest := Split(s[1..], c);
      JoinSplit(s[1..], c);
      if s[0] == c {
        assert Split(s, c) == [""] + rest;
        assert ([""] + rest)[1..] == rest;
        assert s == [c] + s[1..];
      } else {
        var parts := [[s[0]] + rest[0]] + rest[1..];
        assert Split(s, c) == parts;
        if |rest| == 1 {
          assert s[1..] == rest[0];
          assert s == [s[0]] + s[1..];
        } else {
          assert parts[1..] == rest[1..];
          assert Join(rest, [c]) == rest[0] + [c] + Join(rest[1..], [c]);
          assert s == [s[0]] + s[1..];
        }
      }
    }
  }

  /** A piece free of `c`, followed by `c` and a tail, splits into that piece
      followed by the tail's pieces. */
  lemma {:induction false} SplitPiece(p: string, t: string, c: char)
    requires c !in p
    ensures Split(p + [c] + t, c) == [p] + Split(t, c)
  {
    if |p| == 0 {
      assert p + [c] + t == [c] + t;
      assert ([c] + t)[1..] == t;
    } else {
      assert (p + [c] + t)[1..] == p[1..] + [c] + t;
      SplitPiece(p[1..], t, c);
      assert [p[0]] + p[1..] == p;
    }
  }

  /** A `c`-free string is a single piece. */
  lemma {:induction false} SplitWhole(p: string, c: char)
    requires c !in p
    ensures Split(p, c) == [p]
  {
    if |p| > 0 {
      SplitWhole(p[1..], c);
      assert [p[0]] + p[1..] == p;
    }
  }

  /** Joining `c`-free pieces with `c` and splitting again recovers the pieces. */
  lemma {:induction false} SplitJoin(parts: seq<string>, c: char)
    requires |parts| > 0
    requires forall i :: 0 <= i < |parts| ==> c !in parts[i]
    ensures Split(Join(parts, [c]), c) == parts
  {
    if |parts| == 1 {
      SplitWhole(parts[0], c);
    } else {
      SplitJoin(parts[1..], c);
      SplitPiece(parts[0], Join(parts[1..], [c]), c);
      assert [parts[0]] + parts[1..] == parts;
    }
  }

  /** `strings.HasPrefix`. */
  predicate HasPrefix(s: string, prefix: string)
  {
    |prefix| <= |s| && s[..|prefix|] == prefix
  }

  /** `strings.TrimPrefix`: `s` without `prefix` when it starts with it, else `s`. */
  function TrimPrefix(s: string, prefix: string): (r: string)
    ensures HasPrefix(s, prefix) ==> prefix + r == s
    ensures !HasPrefix(s, prefix) ==> r == s
  {
    if HasPrefix(s, prefix) then s[|prefix|..] else s
  }

  lemma PrefixOfConcat(p: string, t: string)
    ensures HasPrefix(p + t, p)
    ensures TrimPrefix(p + t, p) == t
  {
    assert (p + t)[..|p|] == p;
    assert (p + t)[|p|..] == t;
  }

  /** A string that differs from `p` at some position of both is not prefixed by `p`. */
  lemma NotPrefixAt(s: string, p: string, i: nat)
    requires i < |s| && i < |p| && s[i] != p[i]
    ensures !HasPrefix(s, p)
  {
    if |p| <= |s| {
      assert s[..|p|][i] == s[i];
    }
  }

  /** `sub` occurs in `s` starting at index `i`. */
  predicate OccursAt(s: string, sub: string, i: nat)
  {
    i + |sub| <= |s| && s[i..i + |sub|] == sub
  }

  /** `strings.Contains`, scanning start positions from the left. */
  function Contains(s: string, sub: string): bool
    decreases |s|
  {
    HasPrefix(s, sub) || (|s| > 0 && Contains(s[1..], sub))
  }

  /** The scan finds `sub` exactly when it occurs at some position. */
  lemma {:induction false} ContainsIffOccurs(s: string, sub: string)
    ensures Contains(s, sub) <==> exists i: nat :: OccursAt(s, sub, i)
    decreases |s|
  {
    if HasPrefix(s, sub) {
      assert OccursAt(s, sub, 0);
    } else if |s| == 0 {
      assert |sub| > 0;
    } else {
      ContainsIffOccurs(s[1..], sub);
      if Contains(s[1..], sub) {
        var i: nat :| OccursAt(s[1..], sub, i);
        assert s[1..][i..i + |sub|] == s[i + 1..i + 1 + |sub|];
        assert OccursAt(s, sub, i + 1);
      } else {
        forall i: nat ensures !OccursAt(s, sub, i) {
          if i == 0 {
            if |sub| <= |s| {
              assert s[0..|sub|] == s[..|sub|];
            }
          } else {
            assert !OccursAt(s[1..], sub, i - 1);
            if i + |sub| <= |s| {
              assert s[1..][i - 1..i - 1 + |sub|] == s[i..i + |sub|];
            }
          }
        }
      }
    }
  }
}
